=== FILE: README.md ===
# Invoice CRUD: a Dafny model

This project models the logic of a small invoice application. The server is a Laravel `InvoiceController` over `invoices` and `invoice_items`. The client is an Angular list page, an edit dialog and an HTTP service. Everything is stated as pure transitions over immutable datatypes:

- **Database.** The database is a `map<int, Invoice>`. Each invoice owns a sequence of items. The two auto-increment counters sit beside the map.
- **Controller actions.** Each action is a function `(Database, request) -> (Database, Reply)`. It either commits all of its effects or returns the database unchanged.
- **Client handlers.** Each handler is a function `state -> (state, next request)`.
- **Values.** Money and quantities are exact `real`s. Strings are `seq<char>`. Dates are ISO `YYYY-MM-DD` strings, compared by code point.

Modules, one concern each:

| file | module | what |
|---|---|---|
| wrappers.dfy | `Wrappers` | `Option`, `Result` |
| text.dfy | `Text` | JavaScript `trim`, PHP blank strings, ASCII lower-casing, substring search, string ordering, decimal naturals |
| invoice.dfy | `Model` | `Invoice`, `Item`, line totals and their sum |
| sorting.dfy | `Sorting`, `Seqs` | stable insertion sort over a three-way comparator; order-preserving filter; ascending keys of a set |
| controller.dfy | `InvoiceController` | validation rules, `store`, `update`, `destroy`, `show`, database invariant |
| query.dfy | `InvoiceQuery` | `index` (filters, date-descending order, pagination), `search` |
| service.dfy | `InvoiceService` | update payload, list query parameters, duplicate-number check |
| modal.dfy | `InvoiceModal` | edit buffer: validation, change detection, reset, item edits, totals, save gate |
| list.dfy | `InvoiceList` | list page: comparator, sorting toggle, search input, paging, save and delete callbacks |

Points where the model follows the code as written:

- **Unknown id on `update` and `destroy`.** The comments at `InvoiceController.php:180` and `:233` say "fail with 404". But `findOrFail` runs inside a `try` whose `catch (\Exception)` answers 500. The model answers 500 (see Findings).
- **Search term and the framework's input middleware.** Laravel's default `TrimStrings` and `ConvertEmptyStringsToNull` middleware run before `search`. They trim the `q` parameter and turn a blank one into null. So `"   "` reaches `empty()` as null and yields `[]`, and `" INV "` is searched as `"INV"`. The model applies both steps to `q` (`InvoiceController.TrimmedInput`). `"0"` passes the middleware unchanged and then counts as empty (see Findings).
- **Tie order.** Among invoices with equal dates, the model fixes one order: ascending id, then a stable sort by date descending. The SQL `ORDER BY date DESC` leaves ties unspecified.

## Model

| member | source | states |
|---|---|---|
| InvoiceController.Validate | laravel/app/Http/Controllers/InvoiceController.php:94-103 | The error set is empty exactly when every rule holds: `required`/`max:255` strings, a date, a nullable reference, at least one item, each item with a name, a price ≥ 0 and an integer quantity ≥ 1, and a number no other row holds. `number` is reported exactly when it is blank, too long or taken. `items` is reported exactly when it is missing or empty. |
| InvoiceController.MakeItem | laravel/app/Http/Controllers/InvoiceController.php:124-132 | A created item carries the request's name, price and quantity, and `total_amount == unit_price * quantity`. |
| InvoiceController.Store | laravel/app/Http/Controllers/InvoiceController.php:92-152 | Creation happens exactly when the request is valid and the database does not fail. An invalid request answers 422 and any failure leaves the database unchanged. On success, exactly one invoice is added under the next id and every other invoice is untouched. It carries the request's number, date, customer and reference (none when the reference is absent). Its items follow the request's items one for one, in order, each with total = price × quantity. The status is one of 201, 422 or 500. |
| InvoiceController.Update | laravel/app/Http/Controllers/InvoiceController.php:157-225 | The update happens exactly when the request is valid (ignoring the invoice's own row in the uniqueness check), the id exists and the database does not fail. A valid request for an unknown id answers 500 and changes nothing. On success the invoice is replaced in place with the request's number, date, customer and reference, and its items are rebuilt from the request, with fresh ids and recomputed totals. |
| InvoiceController.Destroy | laravel/app/Http/Controllers/InvoiceController.php:230-249 | The invoice is removed exactly when its id exists and the database does not fail; nothing else changes, the id counters included. Otherwise the database is unchanged and the reply is 500. |
| InvoiceController.Show | laravel/app/Http/Controllers/InvoiceController.php:83-87 | Returns the stored invoice with 200 when the id exists, otherwise 404. |
| InvoiceController.StorePreservesValid | laravel/database/migrations/2025_09_03_034327_make_invoice_number_globally_unique.php:19 | `store` keeps the database invariant: rows are keyed by their ids, item rows are well formed, and `number` is unique across invoices. |
| InvoiceController.UpdatePreservesValid | laravel/app/Http/Controllers/InvoiceController.php:160 | `update` keeps the same invariant. Its unique rule that ignores the row's own id is enough to keep numbers unique. |
| InvoiceController.DestroyPreservesValid | laravel/app/Http/Controllers/InvoiceController.php:234-237 | `destroy` keeps the invariant. |
| InvoiceController.StoreRejectsTakenNumber | laravel/app/Http/Controllers/InvoiceController.php:95 | A `store` whose number is already held by some invoice fails validation on `number` and leaves the database unchanged. |
| InvoiceController.UpdateKeepingOwnNumberPassesUnique | laravel/app/Http/Controllers/InvoiceController.php:160 | In a valid database, resubmitting an invoice's own number never counts as taken. |
| InvoiceController.UpdateTakingOtherNumberFails | laravel/app/Http/Controllers/InvoiceController.php:160 | An update that takes another invoice's number fails on `number` and changes nothing. |
| InvoiceController.UpdateReplacesAllItems | laravel/app/Http/Controllers/InvoiceController.php:191-205 | After a successful update, no item of the old item set remains on the invoice. |
| InvoiceController.DestroyCascades | laravel/app/Http/Controllers/InvoiceController.php:236-237 | After a successful destroy, no remaining item belongs to the deleted invoice. |
| InvoiceController.StoreThenShow | laravel/app/Http/Controllers/InvoiceController.php:140-143 | Reading a created invoice back returns exactly what `store` answered. |
| InvoiceController.StoreThenDestroyRestores | laravel/app/Http/Controllers/InvoiceController.php:112-143 | Destroying the invoice just stored restores the previous rows. |
| InvoiceController.StoreExampleTotal | laravel/app/Http/Controllers/InvoiceController.php:125 | Worked example: one line of 3 at 10.00 is stored, and read back, with total 30.00. |
| InvoiceController.UpdateUnknownIdIsServerError | laravel/app/Http/Controllers/InvoiceController.php:177-181 | As written: a valid update of an unknown id answers 500 with no change. |
| InvoiceController.DestroyUnknownIdIsServerError | laravel/app/Http/Controllers/InvoiceController.php:232-248 | As written: destroying an unknown id answers 500 with no change. |
| InvoiceController.UpdateIntended | laravel/app/Http/Controllers/InvoiceController.php:180-181 | Corrected: a valid update of an unknown id answers 404 with no change. Otherwise it behaves as `update`, and 500 arises only from a database failure. |
| InvoiceController.DestroyIntended | laravel/app/Http/Controllers/InvoiceController.php:233-234 | Corrected: an unknown id answers 404 with no change. Otherwise it behaves as `destroy`. |
| InvoiceQuery.Index | laravel/app/Http/Controllers/InvoiceController.php:15-38 | Fails exactly when `per_page` cannot be read. Without `per_page`, the page size is 15. Every returned invoice exists and satisfies the customer-substring and date-bound filters. The page is ordered by date descending and holds at most `per_page` rows. The current page is the resolved `page` parameter. The page's rows are exactly that page of the matching selection. `total` counts every matching row, and `last_page` is the smallest page count that covers them. |
| InvoiceQuery.Matching | laravel/app/Http/Controllers/InvoiceController.php:17-35 | Every stored invoice that passes the optional filters appears, nothing else appears, and each matching row appears once (the length equals the number of matching rows). Ordered by date descending. |
| InvoiceQuery.ResolvePerPage | laravel/app/Http/Controllers/InvoiceController.php:34-35 | The page size is at least 1. An absent, empty or `"0"` value falls back to 15. |
| InvoiceQuery.ResolvePerPageOfNat | laravel/app/Http/Controllers/InvoiceController.php:34 | A positive page size written in decimal is read back unchanged. |
| InvoiceQuery.ResolvePage | laravel/app/Http/Controllers/InvoiceController.php:35 | The page is an integer of at least 1. A value that validates as an integer and is at least 1 is taken as it is. Anything else (absent, non-numeric, zero or negative) gives page 1. |
| InvoiceQuery.ResolvePageOfInt | laravel/app/Http/Controllers/InvoiceController.php:35 | Any integer written in decimal, with a minus sign if negative, is read back as itself if it is at least 1, otherwise as page 1. |
| InvoiceQuery.ResolvePageOfSigned | laravel/app/Http/Controllers/InvoiceController.php:35 | A page number written with a leading `+` is read as that number. |
| Text.ParseIntRoundTrip | laravel/app/Http/Controllers/InvoiceController.php:35 | Parsing the decimal rendering of any integer gives that integer back. |
| InvoiceQuery.LastPage | laravel/app/Http/Controllers/InvoiceController.php:35 | `last_page` is at least 1, covers every row, and is the smallest such count. |
| InvoiceQuery.PageSlice | laravel/app/Http/Controllers/InvoiceController.php:35 | Page `p` holds the rows from offset `(p-1)*per_page` onwards, at most `per_page` of them, and fewer only on the last page. |
| InvoiceQuery.PagesPartitionRows | laravel/app/Http/Controllers/InvoiceController.php:35 | Concatenating pages 1 through `last_page` yields the whole ordered selection, each row once. |
| InvoiceQuery.PaginationExample | laravel/app/Http/Controllers/InvoiceController.php:35 | Worked example: 23 rows at 10 per page give 3 pages, and the third page holds 3 rows. |
| InvoiceController.TrimmedInput | laravel/app/Http/Controllers/InvoiceController.php:45 | The middleware step on one input: absent stays absent, a blank string becomes null, and any other string arrives trimmed and non-empty. |
| InvoiceQuery.Search | laravel/app/Http/Controllers/InvoiceController.php:43-78 | The term is first trimmed, and a blank term becomes null. A term that PHP's `empty()` then rejects (null, `""` or `"0"`) yields `[]`. Otherwise every invoice whose number, customer, reference, date or some item's product name contains the trimmed term appears, nothing else appears, and each appears once. The result is ordered by date descending. |
| InvoiceQuery.SearchBlankFindsNothing | laravel/app/Http/Controllers/InvoiceController.php:45-49 | A term of white space only finds nothing. |
| InvoiceQuery.SearchZeroFindsNothing | laravel/app/Http/Controllers/InvoiceController.php:47-49 | As written: the term `"0"` finds nothing, even when some invoice number contains `"0"`, which the corrected search would return. |
| InvoiceQuery.SearchIntended | laravel/app/Http/Controllers/InvoiceController.php:45-65 | Corrected: only a missing or blank term yields `[]`. Any other term, `"0"` included, returns every matching row once, latest date first. |
| Sorting.SortSorted | angular/src/app/components/invoice-list/invoice-list.ts:238-240 | Sorting with a comparator that is a total preorder yields a sequence ordered by it. |
| Sorting.SortStable | angular/src/app/components/invoice-list/invoice-list.ts:253-255 | Sorting is stable: elements the comparator calls equal keep their input order. |
| Seqs.Filter | angular/src/app/components/invoice-list/invoice-list.ts:178 | `filter` keeps exactly the elements that pass, each as often as before, in their original order. |
| Text.JsTrim | angular/src/app/components/invoice-list/invoice-list.ts:105 | `trim()` gives `""` exactly for blank input. Otherwise the result neither starts nor ends with white space. It is the slice of the input that starts right after the leading white space (`LeadingSpace`), with only white space after it, so nothing inside is removed. |
| Text.TrimStart | angular/src/app/components/invoice-list/invoice-list.ts:105 | Removes a prefix made only of white space, and the result does not start with white space. |
| Text.TrimEnd | angular/src/app/components/invoice-list/invoice-list.ts:105 | Removes a suffix made only of white space, and the result does not end with white space. |
| Text.PhpTrim | laravel/app/Http/Controllers/InvoiceController.php:45 | The `TrimStrings` step on `q`: `""` exactly for PHP-blank input; otherwise the slice right after the leading PHP white space, with non-space ends and only PHP white space after it. |
| Text.JsTrimIdempotent | angular/src/app/components/invoice-list/invoice-list.ts:105 | Trimming twice gives the same result as trimming once. |
| Model.SumTotalsAppend | angular/src/app/components/invoice-modal/invoice-modal.ts:312 | The `reduce` sum of line totals splits over concatenation. |
| Model.SumTotalsRemove | angular/src/app/components/invoice-modal/invoice-modal.ts:312 | Removing line `i` lowers the sum by exactly that line's total. |
| InvoiceList.CompareInvoices | angular/src/app/components/invoice-list/invoice-list.ts:260-300 | The result is -1, 0 or 1. It is 0 for an unknown column. For a known column, it is negative exactly when the first key is smaller (in ascending order) or larger (in descending order), and symmetrically for positive. |
| InvoiceList.DescendingNegatesAscending | angular/src/app/components/invoice-list/invoice-list.ts:293-299 | `compare(a, b, col, 'desc') == -compare(a, b, col, 'asc')`. |
| InvoiceList.CompareAntisymmetric | angular/src/app/components/invoice-list/invoice-list.ts:293-299 | `compare(a, b, col, d) == -compare(b, a, col, d)`. |
| InvoiceList.CompareTotalPreorder | angular/src/app/components/invoice-list/invoice-list.ts:260-300 | For every column and direction, the comparator is antisymmetric and its "not after" relation is transitive. |
| InvoiceList.ApplySorting | angular/src/app/components/invoice-list/invoice-list.ts:230-258 | The result is a permutation of the input. With no active column it is the input itself. Otherwise it is ordered by the comparator. |
| InvoiceList.UnknownColumnKeepsOrder | angular/src/app/components/invoice-list/invoice-list.ts:289-290 | Sorting by a column the comparator does not know leaves the list exactly as it was. |
| InvoiceList.ApplySortingStable | angular/src/app/components/invoice-list/invoice-list.ts:236-242 | Invoices with equal keys keep their relative order. |
| InvoiceList.SortBy | angular/src/app/components/invoice-list/invoice-list.ts:210-228 | Clicking the active column flips the direction and keeps the column. Clicking another column selects it and sets the direction to ascending. With an active search, the results are re-sorted by the new column and direction and the page is left unchanged. Without one, the page is re-sorted and the results are left unchanged. The re-sorted list is exactly the stable sort of the old one by the new column and direction. No other field of the state changes. |
| InvoiceList.SortByKeepsTies | angular/src/app/components/invoice-list/invoice-list.ts:210-228 | After a header click, the invoices the new order calls equal appear in the visible list in the same relative order as before, as `Array.prototype.sort` guarantees. |
| InvoiceList.SortByTwiceRestoresDirection | angular/src/app/components/invoice-list/invoice-list.ts:215-220 | Two clicks on one column restore the direction it had, or give descending if the column was new. |
| InvoiceList.ResortVisible | angular/src/app/components/invoice-list/invoice-list.ts:223-227 | With an active search, only the search results are re-sorted. Otherwise only the page is re-sorted. |
| InvoiceList.OnPageChange | angular/src/app/components/invoice-list/invoice-list.ts:120-124 | A page is requested exactly when `1 <= p <= totalPages`, and then it is page `p`. |
| InvoiceList.LoadPageReachesIndex | angular/src/app/components/invoice-list/invoice-list.ts:63 | The list's page request reaches `index` with page size 10 and the requested page as current page. |
| InvoiceList.OnPageLoaded | angular/src/app/components/invoice-list/invoice-list.ts:64-70 | The response's rows, current page, last page and total replace the old ones. Sort and search state are untouched. |
| InvoiceList.OnSearchResults | angular/src/app/components/invoice-list/invoice-list.ts:82-90 | The results become the filtered list, as a permutation of what was received. With an active column they are ordered by that column and direction; otherwise they are kept as received. Nothing else changes. |
| InvoiceList.OnSearchSubmit | angular/src/app/components/invoice-list/invoice-list.ts:104-112 | The term becomes the trimmed input. It is empty exactly when the input is blank, and in that case the results are cleared. Nothing else changes: the page, the sorting and the counters are kept. |
| InvoiceList.OnSearchSubmitIdempotent | angular/src/app/components/invoice-list/invoice-list.ts:104-112 | Submitting twice gives the same state as submitting once. |
| InvoiceList.OnClearSearch | angular/src/app/components/invoice-list/invoice-list.ts:114-118 | Input, term and results are all emptied. The page and the sorting are kept. |
| InvoiceList.SearchEffect | angular/src/app/components/invoice-list/invoice-list.ts:43-53 | A search is issued exactly when the term is not blank, for the lower-cased, trimmed term. Otherwise the page is re-sorted by the active column. |
| InvoiceList.SubmitThenEffectSearches | angular/src/app/components/invoice-list/invoice-list.ts:104-112 | After a submit, a search is issued exactly when the input had a non-blank character. |
| InvoiceList.ClearThenEffectSearchesNothing | angular/src/app/components/invoice-list/invoice-list.ts:114-118 | After a clear, no search is issued. |
| InvoiceList.FindIndexById | angular/src/app/components/invoice-list/invoice-list.ts:150 | Returns the first position holding the id, or none exactly when no entry holds it. |
| InvoiceList.ReplaceFirstById | angular/src/app/components/invoice-list/invoice-list.ts:150-155 | The length is kept. The first entry with the saved invoice's id is replaced and all other positions are kept. With no such entry, the list is unchanged. |
| InvoiceList.OnSaveInvoice | angular/src/app/components/invoice-list/invoice-list.ts:147-161 | The page is updated by replace-by-id. An active search is re-run with the raw term. |
| InvoiceList.SaveKeepsOtherPositions | angular/src/app/components/invoice-list/invoice-list.ts:152-153 | Saving never changes an entry that has a different id. |
| InvoiceList.OnDeleteSuccess | angular/src/app/components/invoice-list/invoice-list.ts:175-200 | The page afterwards holds exactly the entries with other ids, each as often as before, as a subsequence in the same order. `totalInvoices` drops by exactly 1. An active search is re-run. Without a search, nothing is requested unless the page emptied beyond page 1. |
| InvoiceList.DeleteLastOnPageStepsBack | angular/src/app/components/invoice-list/invoice-list.ts:194-200 | With no search, when the page empties and `currentPage > 1` (and the previous page is in range), page `currentPage - 1` is requested. |
| InvoiceList.DeleteBeyondLastPageStaysPut | angular/src/app/components/invoice-list/invoice-list.ts:120-124 | If the previous page exceeds `totalPages`, the guard refuses the step back. |
| InvoiceList.InvoiceTotal | angular/src/app/components/invoice-list/invoice-list.ts:126-128 | The list's invoice total is 0 without lines and always equals the total the edit dialog shows for the same invoice. |
| InvoiceList.ListTotalIsSumOfLines | angular/src/app/components/invoice-list/invoice-list.ts:126-128 | The list's invoice total grows by exactly a line's total when that line is appended. |
| InvoiceModal.ItemError | angular/src/app/components/invoice-modal/invoice-modal.ts:223-236 | Checks run in the order name, price, quantity. The name error is reported, at the given position, exactly when the name is blank. The price error is reported exactly when the name passes and the price is not above 0. The quantity error is reported exactly when both pass and the quantity is not above 0. |
| InvoiceModal.FirstItemError | angular/src/app/components/invoice-modal/invoice-modal.ts:220-237 | The loop reports the first failing item, with its 1-based number, and reports nothing exactly when every item passes. |
| InvoiceModal.ValidateInvoice | angular/src/app/components/invoice-modal/invoice-modal.ts:193-240 | Passes exactly when number, date and customer are non-blank, there is at least one item, and each item has a non-blank name, price > 0 and quantity > 0. Each header error is reported exactly when its check is the first to fail, in the order number, date, customer, items. With the header passing and items present, the result is the first failing item's error, with its 1-based number, and every earlier item passes. |
| InvoiceModal.ItemsDiffer | angular/src/app/components/invoice-modal/invoice-modal.ts:124-133 | True exactly when some position differs in product name, unit price or quantity. |
| InvoiceModal.HasChanges | angular/src/app/components/invoice-modal/invoice-modal.ts:104-136 | False without both invoices. Otherwise true exactly when number, date, reference, customer, item count, or some item's name, price or quantity differs. Ids and totals are ignored. |
| InvoiceModal.HasChangesIffPayloadDiffers | angular/src/app/components/invoice-modal/invoice-modal.ts:104-136 | A change is detected exactly when a save would send a different body. |
| InvoiceModal.OnReset | angular/src/app/components/invoice-modal/invoice-modal.ts:80-102 | With an original, the buffer becomes a copy of it and the error is cleared. The original itself never changes. |
| InvoiceModal.ResetHasNoChanges | angular/src/app/components/invoice-modal/invoice-modal.ts:80-92 | Right after a reset, no change is detected. |
| InvoiceModal.AddItem | angular/src/app/components/invoice-modal/invoice-modal.ts:242-261 | Exactly one item is appended: id 0, the invoice's id, empty name, price 0, quantity 1, total 0. Existing items and all other fields are unchanged. |
| InvoiceModal.SpliceOne | angular/src/app/components/invoice-modal/invoice-modal.ts:267-268 | `splice(i, 1)` removes position `i` when in range. It counts a negative index from the end, clamps below to 0, and does nothing past the end or on an empty list. |
| InvoiceModal.RemoveItem | angular/src/app/components/invoice-modal/invoice-modal.ts:263-274 | Only the spliced position is removed. The remaining items and all other fields are unchanged, and the original is never written. |
| InvoiceModal.RemoveAddedItemRestores | angular/src/app/components/invoice-modal/invoice-modal.ts:242-274 | Removing the item just added gives back the buffer as it was. |
| InvoiceModal.EditItem | angular/src/app/components/invoice-modal/invoice-modal.ts:284-300 | Changes only the named field. A price or quantity edit makes the line total equal price × quantity. A name edit leaves the total alone. |
| InvoiceModal.UpdateItem | angular/src/app/components/invoice-modal/invoice-modal.ts:276-306 | Only item `index` changes, and only as `EditItem` says. |
| InvoiceModal.GetTotalAmount | angular/src/app/components/invoice-modal/invoice-modal.ts:308-313 | 0 without a buffer. With a buffer, the sum of its line totals, and so 0 with no items. |
| InvoiceModal.AddItemKeepsTotal | angular/src/app/components/invoice-modal/invoice-modal.ts:242-261 | Adding an item does not change the total. |
| InvoiceModal.RemoveItemLowersTotal | angular/src/app/components/invoice-modal/invoice-modal.ts:263-274 | Removing item `i` lowers the total by exactly that item's total. |
| InvoiceModal.UpdateItemShiftsTotal | angular/src/app/components/invoice-modal/invoice-modal.ts:294-300 | Editing one item changes the total by exactly the change in that item's total. |
| InvoiceModal.OnSave | angular/src/app/components/invoice-modal/invoice-modal.ts:138-151 | A service call is made exactly when there is a buffer that passes validation. That call updates the buffer's id with the buffer's payload and clears the error. A failed validation shows the validator's first failure as the error. |
| InvoiceService.ToPayload | angular/src/app/services/invoice.ts:38-50 | The body carries number, date, reference and customer unchanged. Its items match the invoice's items in length and order, each with only name, price and quantity. |
| InvoiceService.PayloadDeterminedByContent | angular/src/app/services/invoice.ts:40-49 | Two invoices give the same body exactly when they agree on header fields and on each item's name, price and quantity. Ids and totals are never sent. |
| InvoiceService.AsRequest | angular/src/app/services/invoice.ts:40-49 | The body reaches the validator with every key present. Number, date and customer are given as sent. A null reference is read as absent; any other reference is given as sent. Each item carries the sent name, price and quantity, in the same order. |
| InvoiceService.UpdateStoresSentContent | laravel/app/Http/Controllers/InvoiceController.php:184-205 | A successful update of a client body stores exactly the content that was sent, under the same id. |
| InvoiceService.ResendingOwnContentIsAccepted | laravel/app/Http/Controllers/InvoiceController.php:160 | In a valid database, sending an unchanged invoice back succeeds whenever its fields pass the field rules. Uniqueness is derived, not assumed: its own number does not block it. |
| InvoiceModal.ClientItemPassesServerNumbers | angular/src/app/components/invoice-modal/invoice-modal.ts:228-235 | A client-valid item with a whole quantity passes the server's `numeric|min:0` and `integer|min:1` rules. |
| InvoiceModal.ClientAcceptsFractionalQuantity | angular/src/app/components/invoice-modal/invoice-modal.ts:233 | The client accepts quantity 0.5, which the server's `integer` rule refuses. |
| InvoiceService.QueryParams | angular/src/app/services/invoice.ts:21-29 | A query key is set exactly for a filter that is present and truthy. String filters carry their value; page size and page carry their number in decimal, a negative one with its minus sign. |
| InvoiceService.QueryParamsRoundTrip | angular/src/app/services/invoice.ts:27-28 | The server reads a positive page size and page unchanged. An absent or zero page size becomes 15. An absent, zero or negative page becomes page 1. An empty customer filter selects everyone. |
| InvoiceService.AnyNumberMatch | angular/src/app/services/invoice.ts:68-70 | `some` is true exactly when some returned invoice has the number and, if `excludeId` is truthy, another id. |
| InvoiceService.CheckNumberExists | angular/src/app/services/invoice.ts:58-73 | As written: it answers true only when some stored invoice really matches. |
| InvoiceService.CheckExaminesFirstRow | angular/src/app/services/invoice.ts:64-66 | As written: the answer depends only on the latest-dated invoice, because `per_page=1` and `index` ignores `exclude_id`. |
| InvoiceService.CheckMissesOlderInvoice | angular/src/app/services/invoice.ts:64-71 | As written: a taken number goes unreported whenever another invoice has a later date, while the corrected check reports it. |
| InvoiceService.NumberExistsIntended | angular/src/app/services/invoice.ts:68-70 | Corrected: true exactly when some stored invoice has the number, other than the excluded id. |
| InvoiceService.NumberExistsIntendedMatchesServer | laravel/app/Http/Controllers/InvoiceController.php:160 | The corrected check agrees exactly with the server's `unique` rule that ignores the same id. |

## Left out

- **HTTP and framework.** HTTP transport, Angular dependency injection, signals and `effect` scheduling, `subscribe` plumbing, `confirm`, timed banner messages and console logging are not modelled. Each callback body is a pure transition; the request it starts is returned as a value.
- **Database.** Transactions, Eloquent and the database are not modelled. An unexpected database failure is the boolean `dbFault` parameter. Timestamps (`created_at`, `updated_at`) are not modelled.
- **Dates.** `formatDateForInput` and `generateUniqueInvoiceNumber` depend on the clock, time zones and JavaScript `Date`. Dates are opaque ISO strings, and `formatDateForInput` is taken as the identity.
- **Numeric-sum search.** The clause in `search` for numeric terms (`SUM(...) LIKE`, attached with `orWhere` outside the grouped condition) depends on database formatting and is not modelled.
- **Search input boundaries.** Substring search ignores SQL `LIKE` wildcards in the term (`%`, `_`) and collation-dependent case folding.
- **Input middleware outside `search`.** The `TrimStrings` and `ConvertEmptyStringsToNull` middleware are modelled only for the search term `q`. The `index` filters are taken as sent; the client never sends empty or padded filter values.
- InvoiceController.Store: takes the body's strings as sent. The middleware would trim them first and turn a blank one into null, so `"INV-1 "` would be stored as `"INV-1"`. The client sends the values its own validator accepted.
- InvoiceController.Update: takes the body's strings as sent, for the same reason as `Store`.
- InvoiceController.TrimmedInput: strips PHP's `trim` set (space, tab, newline, carriage return, NUL, vertical tab). Newer framework versions also strip some Unicode spaces.
- **Floating point.** Floating-point behaviour of `parseFloat` and `toFixed(2)` is not modelled. Money is exact.
- InvoiceQuery.ResolvePerPage: reads only canonical decimals. PHP would also accept other numeric strings, such as `"010"` or `"+5"`. The model treats those as a failed request.
- InvoiceQuery.ResolvePage: reads an optional sign followed by canonical decimal digits, as the paginator's integer filter does. PHP's filter also accepts white space around the number; the model does not, and such values fall back to page 1.
- InvoiceQuery.ResolvePage: integers are unbounded. PHP's integer filter rejects a page beyond `PHP_INT_MAX`, which then falls back to page 1. The model reads any length of digits as that page.
- InvoiceQuery.ResolvePerPage: integers are unbounded. A page size beyond PHP's integer range is read as its exact value.
- InvoiceList.SearchEffect: lower-cases ASCII letters only, where `toLowerCase` folds all of Unicode.
- InvoiceModal.HasChanges: compares unit prices as exact values. The source compares the decimal strings, so `"10"` and `"10.00"` count as a change there but not here.
- InvoiceModal.UpdateItem: requires an index inside the item list. The source writes past the end for an out-of-range index, but its template never passes one.
- InvoiceModal.ValidateInvoice: a price or quantity that does not parse (`NaN`) cannot be represented. The model's numbers are always values.
- InvoiceList.CompareInvoices: lower-cases ASCII letters only, where `toLowerCase` folds all of Unicode. The `date` column compares ISO strings rather than `Date` values; for `YYYY-MM-DD` strings the two orders agree. Text keys are ordered by code point, while JavaScript's `<` compares UTF-16 code units. The two orders disagree between a character above U+FFFF and one in U+E000..U+FFFF: JavaScript puts "😀" (first unit 0xD83D) before "Ａ" (U+FF21), the model after.
- InvoiceController.Validate: a malformed value (the wrong JSON type, an unparseable date or number) is the single `Malformed` case, not the individual type rules. The 422 response carries error keys, not message texts.

## Findings

| source | as written | input that shows it | evidently intended | confidence | as-written member | corrected member |
|---|---|---|---|---|---|---|
| laravel/app/Http/Controllers/InvoiceController.php:177-181 | `findOrFail` runs inside `try { … } catch (\Exception $e)`, so an unknown id answers 500 "Failed to update invoice" | a valid `PUT /invoices/999` when no invoice 999 exists | 404, as the comment on line 180 says | medium, not executed | InvoiceController.UpdateUnknownIdIsServerError | InvoiceController.UpdateIntended |
| laravel/app/Http/Controllers/InvoiceController.php:232-234 | the same pattern in `destroy`: an unknown id answers 500 | `DELETE /invoices/999` when no invoice 999 exists | 404, as the comment on line 233 says | medium, not executed | InvoiceController.DestroyUnknownIdIsServerError | InvoiceController.DestroyIntended |
| laravel/app/Http/Controllers/InvoiceController.php:47 | `empty($searchTerm)` is also true for the string `"0"`, so that term returns `[]` | `GET /invoices/search?q=0` while invoice `INV-100` exists | only a missing or empty term returns `[]` | medium, not executed | InvoiceQuery.SearchZeroFindsNothing | InvoiceQuery.SearchIntended |
| angular/src/app/services/invoice.ts:64-71 | the check fetches `index` with `per_page=1` and an `exclude_id` that `index` never reads, so it inspects only the latest-dated invoice | invoices `INV-1` dated 2024-01-01 and `INV-2` dated 2024-02-01; checking `INV-1` answers false | true whenever any invoice other than the excluded one holds the number | high, not executed | InvoiceService.CheckMissesOlderInvoice | InvoiceService.NumberExistsIntended |

=== FILE: controller.dfy ===
/**
 * The server's write path and single-invoice read: request validation, and
 * the `store`, `update`, `destroy` and `show` actions as atomic transitions
 * over a database of invoices keyed by id. A transition either commits all
 * of its effects or returns the database it was given.
 */
module InvoiceController {
  import opened Wrappers
  import opened Text
  import opened Model

  // ---------------------------------------------------------------------
  // Requests
  // ---------------------------------------------------------------------

  /**
   * One request value as the validator sees it. `Missing` is an absent key
   * or JSON null; `Malformed` is a value of the wrong kind (a number where a
   * string is expected, a non-numeric price, an unparseable date).
   */
  datatype Field<+T> = Missing | Malformed | Given(value: T)

  /** One element of the request's `items` array. Numbers arrive as JSON numbers. */
  datatype ItemRequest = ItemRequest(
    productName: Field<string>,
    unitPrice: Field<real>,
    quantity: Field<real>)

  /** The body of a create or update request. */
  datatype InvoiceRequest = InvoiceRequest(
    number: Field<string>,
    date: Field<string>,
    reference: Field<string>,
    customerName: Field<string>,
    items: Field<seq<ItemRequest>>)

  /**
   * One string input after the framework's global `TrimStrings` and
   * `ConvertEmptyStringsToNull` middleware: surrounding white space is
   * removed, and what is left empty becomes null (`None`).
   */
  function TrimmedInput(raw: Option<string>): (v: Option<string>)
    ensures raw.None? ==> v.None?
    ensures raw.Some? ==> (v.None? <==> PhpBlank(raw.value))
    ensures v.Some? ==> v.value == PhpTrim(raw.value) && v.value != ""
  {
    match raw
    case None => None
    case Some(s) => if PhpTrim(s) == "" then None else Some(PhpTrim(s))
  }

  /** The keys of the per-field error map of a 422 response. */
  datatype ErrorKey =
    | NumberKey | DateKey | ReferenceKey | CustomerNameKey | ItemsKey
    | ProductNameKey(index: nat) | UnitPriceKey(index: nat) | QuantityKey(index: nat)

  /** The `max:255` bound on every string column. */
  const MaxStringLength: nat := 255

  /** `required|string|max:255`. */
  predicate RequiredString(f: Field<string>) {
    f.Given? && !PhpBlank(f.value) && |f.value| <= MaxStringLength
  }

  /** `nullable|string|max:255`. */
  predicate NullableString(f: Field<string>) {
    f.Missing? || (f.Given? && |f.value| <= MaxStringLength)
  }

  /** `required|date`: dates are opaque; an unparseable one is `Malformed`. */
  predicate RequiredDate(f: Field<string>) {
    f.Given? && !PhpBlank(f.value)
  }

  /** `required|numeric|min:0`. */
  predicate ValidUnitPrice(f: Field<real>) {
    f.Given? && f.value >= 0.0
  }

  predicate IsInteger(x: real) {
    x.Floor as real == x
  }

  /** `required|integer|min:1`. */
  predicate ValidQuantity(f: Field<real>) {
    f.Given? && IsInteger(f.value) && f.value >= 1.0
  }

  /** `items.*` rules for one element. */
  predicate ItemRequestValid(it: ItemRequest) {
    RequiredString(it.productName) && ValidUnitPrice(it.unitPrice) && ValidQuantity(it.quantity)
  }

  /** `unique:invoices,number[,ignore]`: some other row already holds `number`. */
  predicate NumberTaken(invoices: map<int, Invoice>, number: string, ignore: Option<int>) {
    exists k :: k in invoices && invoices[k].number == number && ignore != Some(k)
  }

  /** Every rule of the rule set that looks at the request alone, that is all but `unique`. */
  predicate FieldRulesHold(req: InvoiceRequest) {
    && RequiredString(req.number)
    && RequiredDate(req.date)
    && NullableString(req.reference)
    && RequiredString(req.customerName)
    && req.items.Given? && |req.items.value| >= 1
    && forall i :: 0 <= i < |req.items.value| ==> ItemRequestValid(req.items.value[i])
  }

  /** All rules of the controller's rule set hold (independent statement of acceptance). */
  predicate RequestValid(req: InvoiceRequest, invoices: map<int, Invoice>, ignore: Option<int>) {
    FieldRulesHold(req) && !NumberTaken(invoices, req.number.value, ignore)
  }

  /** Error keys for the `items.*` rules; none when `items` is not an array. */
  function ItemErrors(items: Field<seq<ItemRequest>>): set<ErrorKey> {
    match items
    case Given(xs) =>
      (set i | 0 <= i < |xs| && !RequiredString(xs[i].productName) :: ProductNameKey(i))
      + (set i | 0 <= i < |xs| && !ValidUnitPrice(xs[i].unitPrice) :: UnitPriceKey(i))
      + (set i | 0 <= i < |xs| && !ValidQuantity(xs[i].quantity) :: QuantityKey(i))
    case _ => {}
  }

  /**
   * Laravel's validator over the rule set: every field whose rules fail
   * contributes its key. `ignore` is the id excluded from the unique check.
   */
  function Validate(req: InvoiceRequest, invoices: map<int, Invoice>, ignore: Option<int>): (errs: set<ErrorKey>)
    ensures errs == {} <==> RequestValid(req, invoices, ignore)
    ensures NumberKey in errs <==> !RequiredString(req.number) || NumberTaken(invoices, req.number.value, ignore)
    ensures ItemsKey in errs <==> !(req.items.Given? && |req.items.value| >= 1)
  {
    var errs :=
      (if !RequiredString(req.number) || NumberTaken(invoices, req.number.value, ignore) then {NumberKey} else {})
      + (if !RequiredDate(req.date) then {DateKey} else {})
      + (if !NullableString(req.reference) then {ReferenceKey} else {})
      + (if !RequiredString(req.customerName) then {CustomerNameKey} else {})
      + (if !(req.items.Given? && |req.items.value| >= 1) then {ItemsKey} else {})
      + ItemErrors(req.items);
    ValidateEmptyIff(req, invoices, ignore, errs);
    errs
  }

  lemma ValidateEmptyIff(req: InvoiceRequest, invoices: map<int, Invoice>, ignore: Option<int>, errs: set<ErrorKey>)
    requires errs ==
      (if !RequiredString(req.number) || NumberTaken(invoices, req.number.value, ignore) then {NumberKey} else {})
      + (if !RequiredDate(req.date) then {DateKey} else {})
      + (if !NullableString(req.reference) then {ReferenceKey} else {})
      + (if !RequiredString(req.customerName) then {CustomerNameKey} else {})
      + (if !(req.items.Given? && |req.items.value| >= 1) then {ItemsKey} else {})
      + ItemErrors(req.items)
    ensures errs == {} <==> RequestValid(req, invoices, ignore)
  {
    if req.items.Given? && !RequestValid(req, invoices, ignore) {
      var xs := req.items.value;
      if exists i :: 0 <= i < |xs| && !ItemRequestValid(xs[i]) {
        var i :| 0 <= i < |xs| && !ItemRequestValid(xs[i]);
        if !RequiredString(xs[i].productName) {
          assert ProductNameKey(i) in errs;
        } else if !ValidUnitPrice(xs[i].unitPrice) {
          assert UnitPriceKey(i) in errs;
        } else {
          assert QuantityKey(i) in errs;
        }
      }
    }
  }

  // ---------------------------------------------------------------------
  // Database and replies
  // ---------------------------------------------------------------------

  /** The `invoices` table (each row owning its `invoice_items`) and the two auto-increment counters. */
  datatype Database = Database(invoices: map<int, Invoice>, nextInvoiceId: int, nextItemId: int)

  /** Rows as every successful write leaves them. */
  ghost predicate ItemsWellFormed(inv: Invoice, nextItemId: int) {
    && |inv.items| >= 1
    && forall i :: 0 <= i < |inv.items| ==>
         && inv.items[i].invoiceId == inv.id
         && TotalConsistent(inv.items[i])
         && IsInteger(inv.items[i].quantity) && inv.items[i].quantity >= 1.0
         && inv.items[i].unitPrice >= 0.0
         && inv.items[i].id < nextItemId
  }

  /** The unique index on `invoices.number`. */
  ghost predicate NumbersUnique(m: map<int, Invoice>) {
    forall j, k :: j in m && k in m && j != k ==> m[j].number != m[k].number
  }

  /** The database invariant: keys are ids below the counter, rows are well formed, numbers unique. */
  ghost predicate Valid(db: Database) {
    && (forall k :: k in db.invoices ==>
          && db.invoices[k].id == k
          && k < db.nextInvoiceId
          && ItemsWellFormed(db.invoices[k], db.nextItemId))
    && NumbersUnique(db.invoices)
  }

  /** What an action answers. */
  datatype Reply =
    | Created(invoice: Invoice)
    | Updated(invoice: Invoice)
    | Deleted
    | Found(invoice: Invoice)
    | ValidationFailed(errors: set<ErrorKey>)
    | NotFound
    | ServerError

  function StatusCode(r: Reply): int {
    match r
    case Created(_) => 201
    case Updated(_) => 200
    case Deleted => 200
    case Found(_) => 200
    case ValidationFailed(_) => 422
    case NotFound => 404
    case ServerError => 500
  }

  // ---------------------------------------------------------------------
  // Building rows from a validated request
  // ---------------------------------------------------------------------

  /** One `invoiceItems()->create(...)`: `total_amount` is `unit_price * quantity` of the request. */
  function MakeItem(req: ItemRequest, invoiceId: int, id: int): (it: Item)
    requires ItemRequestValid(req)
    ensures TotalConsistent(it)
    ensures IsInteger(it.quantity) && it.quantity >= 1.0 && it.unitPrice >= 0.0
    ensures it.productName == req.productName.value
    ensures it.unitPrice == req.unitPrice.value
    ensures it.quantity == req.quantity.value
    ensures it.totalAmount == req.unitPrice.value * req.quantity.value
  {
    Item(id, invoiceId, req.productName.value, req.unitPrice.value, req.quantity.value,
         req.unitPrice.value * req.quantity.value)
  }

  /** The `foreach` over the request's items: one row each, in request order, ids counting up. */
  function MakeItems(reqs: seq<ItemRequest>, invoiceId: int, firstId: int): (items: seq<Item>)
    requires forall i :: 0 <= i < |reqs| ==> ItemRequestValid(reqs[i])
    ensures |items| == |reqs|
    ensures forall i :: 0 <= i < |reqs| ==> items[i] == MakeItem(reqs[i], invoiceId, firstId + i)
    ensures forall i :: 0 <= i < |items| ==>
      items[i].id == firstId + i && items[i].invoiceId == invoiceId && TotalConsistent(items[i])
  {
    if |reqs| == 0 then []
    else [MakeItem(reqs[0], invoiceId, firstId)] + MakeItems(reqs[1..], invoiceId, firstId + 1)
  }

  /** The invoice row a validated request describes; `reference` null when absent. */
  function MakeInvoice(req: InvoiceRequest, id: int, firstItemId: int): (inv: Invoice)
    requires req.number.Given? && req.date.Given? && req.customerName.Given? && req.items.Given?
    requires forall i :: 0 <= i < |req.items.value| ==> ItemRequestValid(req.items.value[i])
    ensures inv.id == id
    ensures inv.number == req.number.value && inv.date == req.date.value
    ensures inv.customerName == req.customerName.value
    ensures inv.reference == (if req.reference.Given? then Some(req.reference.value) else None)
    ensures inv.items == MakeItems(req.items.value, id, firstItemId)
  {
    Invoice(id, req.number.value, req.date.value,
            if req.reference.Given? then Some(req.reference.value) else None,
            req.customerName.value, MakeItems(req.items.value, id, firstItemId))
  }

  // ---------------------------------------------------------------------
  // Actions
  // ---------------------------------------------------------------------

  /**
   * `POST /invoices`. Validation failures answer 422 and write nothing; an
   * unexpected database failure (`dbFault`) rolls back and answers 500;
   * otherwise the invoice and all its items are committed together.
   */
  function Store(db: Database, req: InvoiceRequest, dbFault: bool): (out: (Database, Reply))
    ensures out.1.Created? <==> RequestValid(req, db.invoices, None) && !dbFault
    ensures out.1.ValidationFailed? <==> !RequestValid(req, db.invoices, None)
    ensures !out.1.Created? ==> out.0 == db
    ensures out.1.Created? ==>
      var inv := out.1.invoice;
      && inv.id == db.nextInvoiceId
      && out.0.invoices == db.invoices[inv.id := inv]
      && inv.number == req.number.value && inv.date == req.date.value
      && inv.customerName == req.customerName.value
      && inv.reference == (if req.reference.Given? then Some(req.reference.value) else None)
      && |inv.items| == |req.items.value|
      && (forall i :: 0 <= i < |inv.items| ==>
            && inv.items[i].productName == req.items.value[i].productName.value
            && inv.items[i].unitPrice == req.items.value[i].unitPrice.value
            && inv.items[i].quantity == req.items.value[i].quantity.value
            && inv.items[i].totalAmount == inv.items[i].unitPrice * inv.items[i].quantity)
    ensures StatusCode(out.1) in {201, 422, 500}
  {
    var errs := Validate(req, db.invoices, None);
    if errs != {} then (db, ValidationFailed(errs))
    else if dbFault then (db, ServerError)
    else
      var inv := MakeInvoice(req, db.nextInvoiceId, db.nextItemId);
      (Database(db.invoices[inv.id := inv], db.nextInvoiceId + 1, db.nextItemId + |inv.items|), Created(inv))
  }

  /**
   * `PUT /invoices/{id}`. Validation (unique number ignoring row `id`) comes
   * first; then, inside the transaction, `findOrFail` — whose exception the
   * catch-all turns into 500 — and a full replacement of the item set.
   */
  function Update(db: Database, id: int, req: InvoiceRequest, dbFault: bool): (out: (Database, Reply))
    ensures out.1.Updated? <==> RequestValid(req, db.invoices, Some(id)) && !dbFault && id in db.invoices
    ensures out.1.ValidationFailed? <==> !RequestValid(req, db.invoices, Some(id))
    ensures !out.1.Updated? ==> out.0 == db
    ensures RequestValid(req, db.invoices, Some(id)) && id !in db.invoices ==> out.1 == ServerError
    ensures out.1.Updated? ==>
      var inv := out.1.invoice;
      && inv.id == id
      && out.0.invoices == db.invoices[id := inv]
      && out.0.nextInvoiceId == db.nextInvoiceId
      && inv.number == req.number.value && inv.date == req.date.value
      && inv.customerName == req.customerName.value
      && inv.reference == (if req.reference.Given? then Some(req.reference.value) else None)
      && |inv.items| == |req.items.value|
      && (forall i :: 0 <= i < |inv.items| ==>
            && inv.items[i].id >= db.nextItemId
            && inv.items[i].productName == req.items.value[i].productName.value
            && inv.items[i].unitPrice == req.items.value[i].unitPrice.value
            && inv.items[i].quantity == req.items.value[i].quantity.value
            && TotalConsistent(inv.items[i]))
    ensures StatusCode(out.1) in {200, 422, 500}
  {
    var errs := Validate(req, db.invoices, Some(id));
    if errs != {} then (db, ValidationFailed(errs))
    else if dbFault || id !in db.invoices then (db, ServerError)
    else
      var inv := MakeInvoice(req, id, db.nextItemId);
      (Database(db.invoices[id := inv], db.nextInvoiceId, db.nextItemId + |inv.items|), Updated(inv))
  }

  /**
   * `DELETE /invoices/{id}`: removes the row, its items going with it. The
   * `findOrFail` sits inside the catch-all, so an unknown id answers 500.
   */
  function Destroy(db: Database, id: int, dbFault: bool): (out: (Database, Reply))
    ensures out.1.Deleted? <==> id in db.invoices && !dbFault
    ensures out.1.Deleted? ==> out.0 == db.(invoices := db.invoices - {id}) && id !in out.0.invoices
    ensures !out.1.Deleted? ==> out.0 == db && out.1 == ServerError
  {
    if dbFault || id !in db.invoices then (db, ServerError)
    else (Database(db.invoices - {id}, db.nextInvoiceId, db.nextItemId), Deleted)
  }

  /** `GET /invoices/{id}`: `findOrFail` outside any try, so an unknown id answers 404. */
  function Show(db: Database, id: int): (r: Reply)
    ensures r.Found? <==> id in db.invoices
    ensures r.Found? ==> r.invoice == db.invoices[id] && StatusCode(r) == 200
    ensures !r.Found? ==> r == NotFound && StatusCode(r) == 404
  {
    if id in db.invoices then Found(db.invoices[id]) else NotFound
  }

  // ---------------------------------------------------------------------
  // Properties of the actions
  // ---------------------------------------------------------------------

  /** Rows built from a valid request satisfy the row invariant. */
  lemma MakeItemsWellFormed(req: InvoiceRequest, id: int, firstItemId: int)
    requires req.number.Given? && req.date.Given? && req.customerName.Given?
    requires req.items.Given? && |req.items.value| >= 1
    requires forall i :: 0 <= i < |req.items.value| ==> ItemRequestValid(req.items.value[i])
    ensures ItemsWellFormed(MakeInvoice(req, id, firstItemId), firstItemId + |req.items.value|)
  {
  }

  /** A successful `store` keeps the invariant, in particular uniqueness of `number`. */
  lemma StorePreservesValid(db: Database, req: InvoiceRequest, dbFault: bool)
    requires Valid(db)
    ensures Valid(Store(db, req, dbFault).0)
  {
    var (db', reply) := Store(db, req, dbFault);
    if reply.Created? {
      var inv := reply.invoice;
      MakeItemsWellFormed(req, inv.id, db.nextItemId);
      forall k | k in db'.invoices
        ensures db'.invoices[k].id == k && k < db'.nextInvoiceId
        ensures ItemsWellFormed(db'.invoices[k], db'.nextItemId)
      {
        if k != inv.id {
          assert ItemsWellFormed(db.invoices[k], db.nextItemId);
        }
      }
      forall j, k | j in db'.invoices && k in db'.invoices && j != k
        ensures db'.invoices[j].number != db'.invoices[k].number
      {
        if j == inv.id {
          assert !NumberTaken(db.invoices, inv.number, None);
          assert k in db.invoices;
        } else if k == inv.id {
          assert !NumberTaken(db.invoices, inv.number, None);
          assert j in db.invoices;
        }
      }
    }
  }

  /** A successful `update` keeps the invariant: the new number clashes with no other row. */
  lemma UpdatePreservesValid(db: Database, id: int, req: InvoiceRequest, dbFault: bool)
    requires Valid(db)
    ensures Valid(Update(db, id, req, dbFault).0)
  {
    var (db', reply) := Update(db, id, req, dbFault);
    if reply.Updated? {
      var inv := reply.invoice;
      MakeItemsWellFormed(req, id, db.nextItemId);
      forall k | k in db'.invoices
        ensures db'.invoices[k].id == k && k < db'.nextInvoiceId
        ensures ItemsWellFormed(db'.invoices[k], db'.nextItemId)
      {
        if k != id {
          assert ItemsWellFormed(db.invoices[k], db.nextItemId);
        }
      }
      forall j, k | j in db'.invoices && k in db'.invoices && j != k
        ensures db'.invoices[j].number != db'.invoices[k].number
      {
        if j == id {
          assert !NumberTaken(db.invoices, inv.number, Some(id));
          assert k in db.invoices;
        } else if k == id {
          assert !NumberTaken(db.invoices, inv.number, Some(id));
          assert j in db.invoices;
        }
      }
    }
  }

  lemma DestroyPreservesValid(db: Database, id: int, dbFault: bool)
    requires Valid(db)
    ensures Valid(Destroy(db, id, dbFault).0)
  {
  }

  /** Creating a second invoice with a number already in use fails on `number` and changes nothing. */
  lemma StoreRejectsTakenNumber(db: Database, req: InvoiceRequest, other: int, dbFault: bool)
    requires other in db.invoices && req.number == Given(db.invoices[other].number)
    ensures Store(db, req, dbFault).0 == db
    ensures Store(db, req, dbFault).1.ValidationFailed?
    ensures NumberKey in Store(db, req, dbFault).1.errors
  {
    assert NumberTaken(db.invoices, req.number.value, None);
  }

  /** `update` may keep the invoice's own number: the unique rule ignores that row. */
  lemma UpdateKeepingOwnNumberPassesUnique(db: Database, id: int, req: InvoiceRequest)
    requires Valid(db) && id in db.invoices
    requires req.number == Given(db.invoices[id].number)
    ensures !NumberTaken(db.invoices, req.number.value, Some(id))
  {
  }

  /** `update` may not take another invoice's number. */
  lemma UpdateTakingOtherNumberFails(db: Database, id: int, other: int, req: InvoiceRequest, dbFault: bool)
    requires other in db.invoices && other != id
    requires req.number == Given(db.invoices[other].number)
    ensures Update(db, id, req, dbFault).0 == db
    ensures Update(db, id, req, dbFault).1.ValidationFailed?
    ensures NumberKey in Update(db, id, req, dbFault).1.errors
  {
    assert NumberTaken(db.invoices, req.number.value, Some(id));
  }

  /** After `update` no item of the old item set survives: every item of the invoice is new. */
  lemma UpdateReplacesAllItems(db: Database, id: int, req: InvoiceRequest, dbFault: bool)
    requires Valid(db)
    requires Update(db, id, req, dbFault).1.Updated?
    ensures var inv := Update(db, id, req, dbFault).0.invoices[id];
      forall it :: it in inv.items ==> it !in db.invoices[id].items
  {
    var inv := Update(db, id, req, dbFault).0.invoices[id];
    forall it | it in inv.items ensures it !in db.invoices[id].items {
      assert ItemsWellFormed(db.invoices[id], db.nextItemId);
    }
  }

  /** After a successful `destroy` no remaining item belongs to the deleted invoice. */
  lemma DestroyCascades(db: Database, id: int)
    requires Valid(db) && id in db.invoices
    ensures var db' := Destroy(db, id, false).0;
      forall k, i :: k in db'.invoices && 0 <= i < |db'.invoices[k].items| ==>
        db'.invoices[k].items[i].invoiceId != id
  {
    var db' := Destroy(db, id, false).0;
    forall k, i | k in db'.invoices && 0 <= i < |db'.invoices[k].items|
      ensures db'.invoices[k].items[i].invoiceId != id
    {
      assert k in db.invoices && k != id && db'.invoices[k] == db.invoices[k];
      assert ItemsWellFormed(db.invoices[k], db.nextItemId);
      assert db.invoices[k].items[i].invoiceId == k;
    }
  }

  /** Reading back a created invoice returns exactly what `store` answered. */
  lemma StoreThenShow(db: Database, req: InvoiceRequest)
    requires Store(db, req, false).1.Created?
    ensures var (db', reply) := Store(db, req, false);
      Show(db', reply.invoice.id) == Found(reply.invoice)
  {
  }

  /** Deleting the invoice just created restores the previous rows. */
  lemma StoreThenDestroyRestores(db: Database, req: InvoiceRequest)
    requires Valid(db)
    requires Store(db, req, false).1.Created?
    ensures var (db', reply) := Store(db, req, false);
      Destroy(db', reply.invoice.id, false).0.invoices == db.invoices
  {
    var (db', reply) := Store(db, req, false);
    assert reply.invoice.id !in db.invoices;
    assert db'.invoices - {reply.invoice.id} == db.invoices;
  }

  /** The worked example: one line of 3 at 10 is stored with total 30. */
  lemma StoreExampleTotal(db: Database)
    requires db.invoices == map[]
    ensures var req := InvoiceRequest(Given("INV-100"), Given("2025-01-01"), Missing, Given("Acme"),
              Given([ItemRequest(Given("Widget"), Given(10.0), Given(3.0))]));
      var (db', reply) := Store(db, req, false);
      reply.Created? && |reply.invoice.items| == 1 && reply.invoice.items[0].totalAmount == 30.0
      && Show(db', reply.invoice.id).invoice.items[0].totalAmount == 30.0
  {
    var req := InvoiceRequest(Given("INV-100"), Given("2025-01-01"), Missing, Given("Acme"),
      Given([ItemRequest(Given("Widget"), Given(10.0), Given(3.0))]));
    assert !PhpBlank("INV-100") by { assert !IsPhpSpace("INV-100"[0]); }
    assert !PhpBlank("2025-01-01") by { assert !IsPhpSpace("2025-01-01"[0]); }
    assert !PhpBlank("Acme") by { assert !IsPhpSpace("Acme"[0]); }
    assert !PhpBlank("Widget") by { assert !IsPhpSpace("Widget"[0]); }
    assert ItemRequestValid(req.items.value[0]);
    assert RequestValid(req, db.invoices, None);
  }

  // ---------------------------------------------------------------------
  // Unknown ids on update and destroy
  // ---------------------------------------------------------------------

  /** As written: a valid update of an unknown id answers 500, not 404. */
  lemma UpdateUnknownIdIsServerError(db: Database, id: int, req: InvoiceRequest)
    requires id !in db.invoices && RequestValid(req, db.invoices, Some(id))
    ensures Update(db, id, req, false) == (db, ServerError)
    ensures StatusCode(Update(db, id, req, false).1) == 500
  {
  }

  /** As written: deleting an unknown id answers 500, not 404. */
  lemma DestroyUnknownIdIsServerError(db: Database, id: int)
    requires id !in db.invoices
    ensures Destroy(db, id, false) == (db, ServerError)
    ensures StatusCode(Destroy(db, id, false).1) == 500
  {
  }

  /** `update` as its "fail with 404" comment intends: an unknown id is reported as not found. */
  function UpdateIntended(db: Database, id: int, req: InvoiceRequest, dbFault: bool): (out: (Database, Reply))
    ensures id !in db.invoices && RequestValid(req, db.invoices, Some(id)) ==>
      out == (db, NotFound) && StatusCode(out.1) == 404
    ensures id in db.invoices || !RequestValid(req, db.invoices, Some(id)) ==>
      out == Update(db, id, req, dbFault)
    ensures out.1.ServerError? ==> dbFault
  {
    var errs := Validate(req, db.invoices, Some(id));
    if errs == {} && id !in db.invoices then (db, NotFound) else Update(db, id, req, dbFault)
  }

  /** `destroy` as its "fail with 404" comment intends. */
  function DestroyIntended(db: Database, id: int, dbFault: bool): (out: (Database, Reply))
    ensures id !in db.invoices ==> out == (db, NotFound) && StatusCode(out.1) == 404
    ensures id in db.invoices ==> out == Destroy(db, id, dbFault)
    ensures out.1.ServerError? ==> dbFault
  {
    if id !in db.invoices then (db, NotFound) else Destroy(db, id, dbFault)
  }
}

=== FILE: invoice.dfy ===
/**
 * The invoice aggregate as both sides exchange it: an invoice owns an
 * ordered sequence of line items. Field names follow the JSON shape of the
 * client's `Invoice` and `InvoiceItem` interfaces; timestamps are omitted.
 * Money is exact (`real`), never a binary float.
 */
module Model {
  import opened Wrappers

  /** One line of an invoice. `totalAmount` is derived: unit price times quantity. */
  datatype Item = Item(
    id: int,
    invoiceId: int,
    productName: string,
    unitPrice: real,
    quantity: real,
    totalAmount: real)

  /** An invoice with its items in insertion order; `reference` is nullable. */
  datatype Invoice = Invoice(
    id: int,
    number: string,
    date: string,
    reference: Option<string>,
    customerName: string,
    items: seq<Item>)

  /** The amount of one line: `unit_price * quantity`. */
  function LineTotal(unitPrice: real, quantity: real): real {
    unitPrice * quantity
  }

  /** The stored or displayed total agrees with price and quantity. */
  predicate TotalConsistent(it: Item) {
    it.totalAmount == LineTotal(it.unitPrice, it.quantity)
  }

  /** `items.reduce((sum, item) => sum + item.total_amount, 0)`, folding from the left. */
  function SumTotals(items: seq<Item>): real {
    if |items| == 0 then 0.0 else SumTotals(items[..|items| - 1]) + items[|items| - 1].totalAmount
  }

  /** The running total splits over concatenation. */
  lemma {:induction false} SumTotalsAppend(a: seq<Item>, b: seq<Item>)
    ensures SumTotals(a + b) == SumTotals(a) + SumTotals(b)
  {
    if |b| > 0 {
      assert (a + b)[..|a + b| - 1] == a + b[..|b| - 1];
      SumTotalsAppend(a, b[..|b| - 1]);
    } else {
      assert a + b == a;
    }
  }

  /** Removing the line at `i` lowers the total by exactly that line's amount. */
  lemma {:induction false} SumTotalsRemove(items: seq<Item>, i: int)
    requires 0 <= i < |items|
    ensures SumTotals(items[..i] + items[i + 1..]) == SumTotals(items) - items[i].totalAmount
  {
    var pre, mid, post := items[..i], [items[i]], items[i + 1..];
    assert SumTotals(mid) == items[i].totalAmount by {
      assert mid[..0] == [];
    }
    SumTotalsAppend(pre, post);
    SumTotalsAppend(pre, mid);
    SumTotalsAppend(pre + mid, post);
    assert pre + mid + post == items;
  }
}

=== FILE: list.dfy ===
/**
 * The invoice list page as a state machine: the current page of invoices,
 * pagination counters, the sort column and direction, and the search input,
 * term and results. Each handler is a pure transition returning the new
 * state and the request it issues next, if any.
 */
module InvoiceList {
  import opened Wrappers
  import opened Text
  import opened Model
  import Sorting
  import Seqs
  import InvoiceController
  import InvoiceQuery
  import InvoiceService
  import InvoiceModal

  /** `loadInvoices` always asks for pages of this size. */
  const ListPageSize: nat := 10

  datatype Direction = Asc | Desc

  /** The component's signals that the handlers read and write. */
  datatype ListState = ListState(
    invoices: seq<Invoice>,
    currentPage: int,
    totalPages: int,
    totalInvoices: int,
    sortColumn: string,
    sortDirection: Direction,
    searchInput: string,
    searchTerm: string,
    filtered: seq<Invoice>)

  /** The request a handler starts: none, `loadInvoices(page)` or `performSearch(term)`. */
  datatype Request = NoRequest | LoadPage(page: int) | SearchFor(term: string)

  // ---------------------------------------------------------------------
  // compareInvoices
  // ---------------------------------------------------------------------

  /** The columns `compareInvoices` knows. */
  datatype Column = NumberColumn | DateColumn | CustomerColumn | ReferenceColumn | ItemsColumn | TotalColumn

  function ParseColumn(name: string): Option<Column> {
    if name == "number" then Some(NumberColumn)
    else if name == "date" then Some(DateColumn)
    else if name == "customer" then Some(CustomerColumn)
    else if name == "reference" then Some(ReferenceColumn)
    else if name == "items" then Some(ItemsColumn)
    else if name == "total" then Some(TotalColumn)
    else None
  }

  /** A comparison key: lower-cased text compared by code point, or a number. */
  datatype Key = Text(s: string) | Number(x: real)

  /**
   * `getTotalAmount(invoice)`: the sum of the invoice's line totals, the
   * same figure the edit dialog shows for that invoice.
   */
  function InvoiceTotal(inv: Invoice): (t: real)
    ensures |inv.items| == 0 ==> t == 0.0
    ensures t == InvoiceModal.GetTotalAmount(InvoiceModal.ModalState(None, Some(inv), None))
  {
    SumTotals(inv.items)
  }

  /** The value `compareInvoices` extracts for a column; a missing reference compares as "". */
  function KeyOf(inv: Invoice, col: Column): Key {
    match col
    case NumberColumn => Text(Lower(inv.number))
    case DateColumn => Text(inv.date)
    case CustomerColumn => Text(Lower(inv.customerName))
    case ReferenceColumn => Text(if inv.reference.Some? then Lower(inv.reference.value) else "")
    case ItemsColumn => Number(|inv.items| as real)
    case TotalColumn => Number(InvoiceTotal(inv))
  }

  /** JavaScript's `<` on two keys of the same kind. */
  predicate KeyLess(a: Key, b: Key) {
    match (a, b)
    case (Text(x), Text(y)) => LexLess(x, y)
    case (Number(x), Number(y)) => x < y
    case _ => false
  }

  /** `compareInvoices(a, b, column, direction)`: -1, 0 or 1; 0 for a column it does not know. */
  function CompareInvoices(a: Invoice, b: Invoice, column: string, dir: Direction): (c: int)
    ensures c in {-1, 0, 1}
    ensures ParseColumn(column).None? ==> c == 0
    ensures ParseColumn(column).Some? ==>
      var ka, kb := KeyOf(a, ParseColumn(column).value), KeyOf(b, ParseColumn(column).value);
      && (c < 0 <==> (if dir == Asc then KeyLess(ka, kb) else KeyLess(kb, ka)))
      && (c > 0 <==> (if dir == Asc then KeyLess(kb, ka) else KeyLess(ka, kb)))
  {
    match ParseColumn(column)
    case None => 0
    case Some(col) =>
      var ka, kb := KeyOf(a, col), KeyOf(b, col);
      KeyLessAsymmetric(ka, kb);
      if KeyLess(ka, kb) then (if dir == Asc then -1 else 1)
      else if KeyLess(kb, ka) then (if dir == Asc then 1 else -1)
      else 0
  }

  /** `compareInvoices` with the column and direction fixed, as the sort callbacks pass it. */
  function Comparator(column: string, dir: Direction): (Invoice, Invoice) -> int {
    (a, b) => CompareInvoices(a, b, column, dir)
  }

  lemma KeyLessAsymmetric(a: Key, b: Key)
    ensures KeyLess(a, b) ==> !KeyLess(b, a)
  {
    if a.Text? && b.Text? {
      LexLessAsymmetric(a.s, b.s);
    }
  }

  /** Descending order is ascending order negated. */
  lemma DescendingNegatesAscending(a: Invoice, b: Invoice, column: string)
    ensures CompareInvoices(a, b, column, Desc) == -CompareInvoices(a, b, column, Asc)
  {
  }

  /** Swapping the arguments negates the result. */
  lemma CompareAntisymmetric(a: Invoice, b: Invoice, column: string, dir: Direction)
    ensures CompareInvoices(a, b, column, dir) == -CompareInvoices(b, a, column, dir)
  {
  }

  /** Keys of one column are of one kind, and "not less" on them is transitive. */
  lemma KeyNotLessTransitive(a: Invoice, b: Invoice, c: Invoice, col: Column)
    ensures var ka, kb, kc := KeyOf(a, col), KeyOf(b, col), KeyOf(c, col);
      !KeyLess(kb, ka) && !KeyLess(kc, kb) ==> !KeyLess(kc, ka)
  {
    var ka, kb, kc := KeyOf(a, col), KeyOf(b, col), KeyOf(c, col);
    if ka.Text? {
      LexLessTotal(ka.s, kb.s);
      LexLessTotal(kb.s, kc.s);
      LexLessTransitive(ka.s, kb.s, kc.s);
      LexLessAsymmetric(ka.s, kc.s);
      LexLessTransitive(kc.s, ka.s, kb.s);
      LexLessTransitive(kb.s, kc.s, ka.s);
    }
  }

  /** For every known column and direction the comparator is a total preorder, so sorting by it is meaningful. */
  lemma CompareTotalPreorder(column: string, dir: Direction)
    ensures Sorting.TotalPreorder(Comparator(column, dir))
  {
    var cmp := Comparator(column, dir);
    forall a, b ensures cmp(a, b) == -cmp(b, a) {
      CompareAntisymmetric(a, b, column, dir);
    }
    forall a, b, c | cmp(a, b) <= 0 && cmp(b, c) <= 0 ensures cmp(a, c) <= 0 {
      if ParseColumn(column).Some? {
        var col := ParseColumn(column).value;
        if dir == Asc {
          KeyNotLessTransitive(a, b, c, col);
        } else {
          KeyNotLessTransitive(c, b, a, col);
        }
      }
    }
  }

  // ---------------------------------------------------------------------
  // Sorting
  // ---------------------------------------------------------------------

  /** `applySortingTo…`: nothing without a column, otherwise a stable sort by the comparator. */
  function ApplySorting(xs: seq<Invoice>, column: string, dir: Direction): (r: seq<Invoice>)
    ensures multiset(r) == multiset(xs)
    ensures column == "" ==> r == xs
    ensures column != "" ==> Sorting.SortedBy(r, Comparator(column, dir))
  {
    if column == "" then xs
    else
      var cmp := Comparator(column, dir);
      CompareTotalPreorder(column, dir);
      Sorting.SortSorted(xs, cmp);
      Sorting.Sort(xs, cmp)
  }

  /** An unknown column orders nothing: the list keeps its order. */
  lemma UnknownColumnKeepsOrder(xs: seq<Invoice>, column: string, dir: Direction)
    requires ParseColumn(column).None?
    ensures ApplySorting(xs, column, dir) == xs
  {
    if column != "" {
      Sorting.SortAllEqualIsIdentity(xs, Comparator(column, dir));
    }
  }

  /** Invoices the comparator calls equal keep their relative order. */
  lemma ApplySortingStable(xs: seq<Invoice>, column: string, dir: Direction, e: Invoice)
    requires column != ""
    ensures var cmp := Comparator(column, dir);
      Sorting.EquivalentTo(ApplySorting(xs, column, dir), e, cmp) == Sorting.EquivalentTo(xs, e, cmp)
  {
    CompareTotalPreorder(column, dir);
    Sorting.SortStable(xs, e, Comparator(column, dir));
  }

  /** The sorting step shared by `sortBy` and the search results: the visible list is re-sorted. */
  function ResortVisible(s: ListState): (r: ListState)
    ensures r == s.(invoices := r.invoices, filtered := r.filtered)
    ensures s.searchTerm != "" ==>
      r.invoices == s.invoices && r.filtered == ApplySorting(s.filtered, s.sortColumn, s.sortDirection)
    ensures s.searchTerm == "" ==>
      r.filtered == s.filtered && r.invoices == ApplySorting(s.invoices, s.sortColumn, s.sortDirection)
  {
    if s.searchTerm != "" then s.(filtered := ApplySorting(s.filtered, s.sortColumn, s.sortDirection))
    else s.(invoices := ApplySorting(s.invoices, s.sortColumn, s.sortDirection))
  }

  /** `sortBy(column)`: the same column flips the direction; another column starts ascending. */
  function SortBy(s: ListState, column: string): (r: ListState)
    ensures column == s.sortColumn ==>
      r.sortColumn == s.sortColumn && r.sortDirection == (if s.sortDirection == Asc then Desc else Asc)
    ensures column != s.sortColumn ==> r.sortColumn == column && r.sortDirection == Asc
    ensures r.searchTerm == s.searchTerm && r.totalInvoices == s.totalInvoices && r.currentPage == s.currentPage
    ensures multiset(r.invoices) == multiset(s.invoices) && multiset(r.filtered) == multiset(s.filtered)
    ensures s.searchTerm != "" ==> r.invoices == s.invoices
    ensures s.searchTerm == "" ==> r.filtered == s.filtered
    ensures s.searchTerm != "" && r.sortColumn != "" ==>
      Sorting.SortedBy(r.filtered, Comparator(r.sortColumn, r.sortDirection))
    ensures s.searchTerm == "" && r.sortColumn != "" ==>
      Sorting.SortedBy(r.invoices, Comparator(r.sortColumn, r.sortDirection))
    ensures r.sortColumn == "" ==> r.invoices == s.invoices && r.filtered == s.filtered
    ensures s.searchTerm != "" ==> r.filtered == ApplySorting(s.filtered, r.sortColumn, r.sortDirection)
    ensures s.searchTerm == "" ==> r.invoices == ApplySorting(s.invoices, r.sortColumn, r.sortDirection)
    ensures r == s.(sortColumn := r.sortColumn, sortDirection := r.sortDirection,
                    invoices := r.invoices, filtered := r.filtered)
  {
    var toggled :=
      if s.sortColumn == column then s.(sortDirection := if s.sortDirection == Asc then Desc else Asc)
      else s.(sortColumn := column, sortDirection := Asc);
    ResortVisible(toggled)
  }

  /** A header click keeps invoices the new order calls equal in the order they were shown. */
  lemma SortByKeepsTies(s: ListState, column: string, e: Invoice)
    requires column != ""
    ensures var r := SortBy(s, column);
      var cmp := Comparator(r.sortColumn, r.sortDirection);
      if s.searchTerm != "" then
        Sorting.EquivalentTo(r.filtered, e, cmp) == Sorting.EquivalentTo(s.filtered, e, cmp)
      else
        Sorting.EquivalentTo(r.invoices, e, cmp) == Sorting.EquivalentTo(s.invoices, e, cmp)
  {
    var r := SortBy(s, column);
    if s.searchTerm != "" {
      ApplySortingStable(s.filtered, r.sortColumn, r.sortDirection, e);
    } else {
      ApplySortingStable(s.invoices, r.sortColumn, r.sortDirection, e);
    }
  }

  /** Clicking the same header twice restores the direction. */
  lemma SortByTwiceRestoresDirection(s: ListState, column: string)
    ensures SortBy(SortBy(s, column), column).sortDirection
      == (if s.sortColumn == column then s.sortDirection else Desc)
    ensures SortBy(SortBy(s, column), column).sortColumn == column
  {
  }

  // ---------------------------------------------------------------------
  // Loading and searching
  // ---------------------------------------------------------------------

  /** The `getInvoices` filters `loadInvoices(page)` passes. */
  function PageFilters(page: int): InvoiceService.Filters {
    InvoiceService.Filters(None, None, None, Some(ListPageSize as int), Some(page))
  }

  /** The request `LoadPage(page)` reaches `index` with page size 10 and the page asked for. */
  lemma LoadPageReachesIndex(db: InvoiceController.Database, page: int)
    requires page >= 1
    ensures var r := InvoiceQuery.Index(db, InvoiceService.QueryParams(Some(PageFilters(page))));
      r.Success? && r.value.perPage == ListPageSize && r.value.currentPage == page
  {
    InvoiceService.QueryParamsRoundTrip(PageFilters(page));
  }

  /** The success callback of `loadInvoices`: the page's rows and counters replace the old ones. */
  function OnPageLoaded(s: ListState, response: InvoiceQuery.Page): (r: ListState)
    ensures r.invoices == response.data && r.currentPage == response.currentPage
    ensures r.totalPages == response.lastPage && r.totalInvoices == response.total
    ensures r == s.(invoices := response.data, currentPage := response.currentPage,
                    totalPages := response.lastPage, totalInvoices := response.total)
  {
    s.(invoices := response.data, currentPage := response.currentPage,
       totalPages := response.lastPage, totalInvoices := response.total)
  }

  /** `onPageChange(page)`: a load only for a page within `1..totalPages`. */
  function OnPageChange(s: ListState, page: int): (req: Request)
    ensures req.LoadPage? <==> 1 <= page <= s.totalPages
    ensures req.LoadPage? ==> req.page == page
    ensures !req.LoadPage? ==> req == NoRequest
  {
    if 1 <= page && page <= s.totalPages then LoadPage(page) else NoRequest
  }

  /** The success callback of `performSearch`: the results, re-sorted when a column is active. */
  function OnSearchResults(s: ListState, results: seq<Invoice>): (r: ListState)
    ensures r == s.(filtered := r.filtered)
    ensures multiset(r.filtered) == multiset(results)
    ensures s.sortColumn == "" ==> r.filtered == results
    ensures s.sortColumn != "" ==> Sorting.SortedBy(r.filtered, Comparator(s.sortColumn, s.sortDirection))
  {
    s.(filtered := ApplySorting(results, s.sortColumn, s.sortDirection))
  }

  /** `onSearchSubmit`: the trimmed input becomes the term; an empty term clears the results. */
  function OnSearchSubmit(s: ListState): (r: ListState)
    ensures r.searchTerm == JsTrim(s.searchInput)
    ensures r.searchTerm == "" <==> JsBlank(s.searchInput)
    ensures JsBlank(s.searchInput) ==> r.filtered == []
    ensures !JsBlank(s.searchInput) ==> r.filtered == s.filtered
    ensures r.invoices == s.invoices && r.searchInput == s.searchInput
    ensures r == s.(searchTerm := JsTrim(s.searchInput), filtered := r.filtered)
  {
    var v := JsTrim(s.searchInput);
    var s' := s.(searchTerm := v);
    if v == "" then s'.(filtered := []) else s'
  }

  /** Submitting the same input twice is submitting it once. */
  lemma OnSearchSubmitIdempotent(s: ListState)
    ensures OnSearchSubmit(OnSearchSubmit(s)) == OnSearchSubmit(s)
  {
  }

  /** `onClearSearch`: input, term and results all emptied. */
  function OnClearSearch(s: ListState): (r: ListState)
    ensures r.searchInput == "" && r.searchTerm == "" && r.filtered == []
    ensures r.invoices == s.invoices && r.sortColumn == s.sortColumn && r.currentPage == s.currentPage
    ensures r == s.(searchInput := "", searchTerm := "", filtered := [])
  {
    s.(searchInput := "", searchTerm := "", filtered := [])
  }

  /**
   * The effect that runs when the term (or, with no term, the sort column)
   * changes: a search for the lower-cased, trimmed term, or else a re-sort
   * of the page when a column is active.
   */
  function SearchEffect(s: ListState): (out: (ListState, Request))
    ensures out.1.SearchFor? <==> !JsBlank(s.searchTerm)
    ensures out.1.SearchFor? ==> out.0 == s && out.1.term == JsTrim(Lower(s.searchTerm))
    ensures out.1.NoRequest? ==> out.0 == s.(invoices := ApplySorting(s.invoices, s.sortColumn, s.sortDirection))
  {
    var search := JsTrim(Lower(s.searchTerm));
    LowerKeepsBlank(s.searchTerm);
    if search != "" then (s, SearchFor(search))
    else if s.sortColumn != "" then (s.(invoices := ApplySorting(s.invoices, s.sortColumn, s.sortDirection)), NoRequest)
    else (s, NoRequest)
  }

  /** Lower-casing neither creates nor removes white space. */
  lemma LowerKeepsBlank(s: string)
    ensures JsBlank(Lower(s)) <==> JsBlank(s)
  {
    AllSpaceIff(Lower(s), IsJsSpace);
    AllSpaceIff(s, IsJsSpace);
    assert forall i :: 0 <= i < |s| ==> (IsJsSpace(Lower(s)[i]) <==> IsJsSpace(s[i]));
  }

  /** After a clear, the effect issues no search. */
  lemma ClearThenEffectSearchesNothing(s: ListState)
    ensures SearchEffect(OnClearSearch(s)).1 == NoRequest
  {
    var c := OnClearSearch(s);
    assert c.searchTerm == "" && JsBlank(c.searchTerm);
    assert !SearchEffect(c).1.SearchFor?;
  }

  /** After a submit, the effect searches exactly when the input had a non-blank character. */
  lemma SubmitThenEffectSearches(s: ListState)
    ensures SearchEffect(OnSearchSubmit(s)).1.SearchFor? <==> !JsBlank(s.searchInput)
  {
    var t := JsTrim(s.searchInput);
    if !JsBlank(s.searchInput) {
      assert t != [] && !IsJsSpace(t[0]);
    }
  }

  // ---------------------------------------------------------------------
  // Save and delete callbacks
  // ---------------------------------------------------------------------

  /** `findIndex(inv => inv.id === id)`. */
  function FindIndexById(xs: seq<Invoice>, id: int): (r: Option<nat>)
    ensures r.None? <==> forall j :: 0 <= j < |xs| ==> xs[j].id != id
    ensures r.Some? ==> r.value < |xs| && xs[r.value].id == id
    ensures r.Some? ==> forall j :: 0 <= j < r.value ==> xs[j].id != id
  {
    if |xs| == 0 then None
    else if xs[0].id == id then Some(0)
    else
      match FindIndexById(xs[1..], id)
      case None => None
      case Some(k) => Some(k + 1)
  }

  /** The first entry with the updated invoice's id is replaced by it; otherwise nothing changes. */
  function ReplaceFirstById(xs: seq<Invoice>, updated: Invoice): (r: seq<Invoice>)
    ensures |r| == |xs|
    ensures (forall j :: 0 <= j < |xs| ==> xs[j].id != updated.id) ==> r == xs
    ensures forall i :: (0 <= i < |xs| && xs[i].id == updated.id
      && (forall j :: 0 <= j < i ==> xs[j].id != updated.id)) ==> r == xs[i := updated]
  {
    match FindIndexById(xs, updated.id)
    case None => xs
    case Some(i) => xs[i := updated]
  }

  /** `onSaveInvoice`: replace on the page; re-run an active search with the raw term. */
  function OnSaveInvoice(s: ListState, updated: Invoice): (out: (ListState, Request))
    ensures out.0 == s.(invoices := ReplaceFirstById(s.invoices, updated))
    ensures out.1 == (if s.searchTerm != "" then SearchFor(s.searchTerm) else NoRequest)
  {
    (s.(invoices := ReplaceFirstById(s.invoices, updated)),
     if s.searchTerm != "" then SearchFor(s.searchTerm) else NoRequest)
  }

  /** Saving leaves every entry with a different id where it was. */
  lemma SaveKeepsOtherPositions(s: ListState, updated: Invoice, i: int)
    requires 0 <= i < |s.invoices| && s.invoices[i].id != updated.id
    ensures OnSaveInvoice(s, updated).0.invoices[i] == s.invoices[i]
  {
  }

  /**
   * The success branch of `deleteInvoice`: the id is filtered out of the
   * page, the total drops by one, and then either the active search is
   * re-run or, when the page emptied beyond page 1, the previous page is
   * requested through `onPageChange`.
   */
  function OnDeleteSuccess(s: ListState, id: int): (out: (ListState, Request))
    ensures forall inv :: inv in out.0.invoices <==> inv in s.invoices && inv.id != id
    ensures Seqs.Subsequence(out.0.invoices, s.invoices)
    ensures forall inv :: multiset(out.0.invoices)[inv] == if inv.id != id then multiset(s.invoices)[inv] else 0
    ensures out.0.totalInvoices == s.totalInvoices - 1
    ensures out.0 == s.(invoices := out.0.invoices, totalInvoices := out.0.totalInvoices)
    ensures s.searchTerm != "" ==> out.1 == SearchFor(s.searchTerm)
    ensures s.searchTerm == "" && (|out.0.invoices| > 0 || s.currentPage <= 1) ==> out.1 == NoRequest
  {
    var remaining := Seqs.Filter(s.invoices, (inv: Invoice) => inv.id != id);
    var s' := s.(invoices := remaining, totalInvoices := s.totalInvoices - 1);
    var req :=
      if s.searchTerm != "" then SearchFor(s.searchTerm)
      else if |remaining| == 0 && s.currentPage > 1 then OnPageChange(s', s.currentPage - 1)
      else NoRequest;
    (s', req)
  }

  /** When the last row of a later page goes, the previous page is loaded, provided it is in range. */
  lemma DeleteLastOnPageStepsBack(s: ListState, id: int)
    requires s.searchTerm == "" && s.currentPage > 1 && s.currentPage - 1 <= s.totalPages
    requires forall j :: 0 <= j < |s.invoices| ==> s.invoices[j].id == id
    ensures OnDeleteSuccess(s, id).1 == LoadPage(s.currentPage - 1)
  {
    var out := OnDeleteSuccess(s, id);
    assert forall inv :: inv !in out.0.invoices;
  }

  /**
   * A page past the last one (the server answers it with no rows) does not
   * step back: the guard in `onPageChange` refuses it.
   */
  lemma DeleteBeyondLastPageStaysPut(s: ListState, id: int)
    requires s.searchTerm == "" && s.currentPage - 1 > s.totalPages
    ensures OnDeleteSuccess(s, id).1 == NoRequest
  {
  }

  /** Appending a line raises the list's invoice total by that line's total. */
  lemma ListTotalIsSumOfLines(inv: Invoice, it: Item)
    ensures InvoiceTotal(inv.(items := inv.items + [it])) == InvoiceTotal(inv) + it.totalAmount
  {
    SumTotalsAppend(inv.items, [it]);
    assert [it][..0] == [];
  }
}

=== FILE: modal.dfy ===
/**
 * The edit dialog's buffer: a copy of the invoice being edited next to the
 * original it came from. Item edits are sequence edits on the copy; the
 * original is never written. Saving is gated by the client-side validator.
 */
module InvoiceModal {
  import opened Wrappers
  import opened Text
  import opened Model
  import Seqs
  import InvoiceController
  import InvoiceService

  /** The first problem `validateInvoice` reports; item numbers are 1-based as in the messages. */
  datatype ClientError =
    | NumberRequired
    | DateRequired
    | CustomerNameRequired
    | ItemsRequired
    | ProductNameRequired(item: nat)
    | UnitPriceRequired(item: nat)
    | QuantityRequired(item: nat)

  /** `invoice` (the input), `editedInvoice` (the buffer) and the displayed error. */
  datatype ModalState = ModalState(original: Option<Invoice>, edited: Option<Invoice>, error: Option<ClientError>)

  /** The service call `onSave` makes, if any. */
  datatype SaveCall = NoCall | UpdateCall(id: int, payload: InvoiceService.UpdatePayload)

  /** The value passed to `updateItem` for one field. */
  datatype ItemEdit =
    | SetProductName(name: string)
    | SetUnitPrice(price: real)
    | SetQuantity(quantity: real)
    | SetOtherField

  // ---------------------------------------------------------------------
  // validateInvoice
  // ---------------------------------------------------------------------

  /** An item passes: a non-blank product name, a positive price and a positive quantity. */
  predicate ItemValid(it: Item) {
    !JsBlank(it.productName) && it.unitPrice > 0.0 && it.quantity > 0.0
  }

  /** The whole invoice passes every client-side check. */
  predicate ClientValid(inv: Invoice) {
    && !JsBlank(inv.number) && inv.date != "" && !JsBlank(inv.customerName)
    && |inv.items| > 0
    && forall i :: 0 <= i < |inv.items| ==> ItemValid(inv.items[i])
  }

  /** The error for one item, checked in the order name, price, quantity. */
  function ItemError(it: Item, position: nat): (e: Option<ClientError>)
    ensures e.None? <==> ItemValid(it)
    ensures e == Some(ProductNameRequired(position)) <==> JsBlank(it.productName)
    ensures e == Some(UnitPriceRequired(position)) <==> !JsBlank(it.productName) && it.unitPrice <= 0.0
    ensures e == Some(QuantityRequired(position)) <==>
      !JsBlank(it.productName) && it.unitPrice > 0.0 && it.quantity <= 0.0
  {
    if JsBlank(it.productName) then Some(ProductNameRequired(position))
    else if it.unitPrice <= 0.0 then Some(UnitPriceRequired(position))
    else if it.quantity <= 0.0 then Some(QuantityRequired(position))
    else None
  }

  /** Item `i` is the first failing item at or after `from`. */
  predicate FirstFailureAt(items: seq<Item>, from: nat, i: int) {
    && from <= i < |items| && !ItemValid(items[i])
    && forall j :: from <= j < i ==> ItemValid(items[j])
  }

  /** The `for` loop over the items from index `from`: the first failing item's error. */
  function FirstItemError(items: seq<Item>, from: nat): (e: Option<ClientError>)
    requires from <= |items|
    ensures e.None? <==> forall i :: from <= i < |items| ==> ItemValid(items[i])
    ensures e.Some? ==> exists i :: FirstFailureAt(items, from, i) && e == ItemError(items[i], i + 1)
    decreases |items| - from
  {
    if from == |items| then None
    else
      var e := ItemError(items[from], from + 1);
      if e.Some? then
        assert FirstFailureAt(items, from, from);
        e
      else
        FirstFailureExtends(items, from);
        FirstItemError(items, from + 1)
  }

  /** Past a passing item, the first failure from the next index is the first failure from this one. */
  lemma FirstFailureExtends(items: seq<Item>, from: nat)
    requires from < |items| && ItemValid(items[from])
    ensures forall i :: FirstFailureAt(items, from + 1, i) ==> FirstFailureAt(items, from, i)
  {
  }

  /** `validateInvoice`: `None` when every check passes, otherwise the first failing check. */
  function ValidateInvoice(inv: Invoice): (e: Option<ClientError>)
    ensures e.None? <==> ClientValid(inv)
    ensures e == Some(NumberRequired) <==> JsBlank(inv.number)
    ensures e == Some(DateRequired) <==> !JsBlank(inv.number) && inv.date == ""
    ensures e == Some(CustomerNameRequired) <==>
      !JsBlank(inv.number) && inv.date != "" && JsBlank(inv.customerName)
    ensures e == Some(ItemsRequired) <==>
      !JsBlank(inv.number) && inv.date != "" && !JsBlank(inv.customerName) && |inv.items| == 0
    ensures !JsBlank(inv.number) && inv.date != "" && !JsBlank(inv.customerName) && |inv.items| > 0 ==>
      e == FirstItemError(inv.items, 0)
    ensures e.Some? && e.value.ProductNameRequired? ==>
      var n := e.value.item;
      && 1 <= n <= |inv.items|
      && JsBlank(inv.items[n - 1].productName)
      && forall j :: 0 <= j < n - 1 ==> ItemValid(inv.items[j])
    ensures e.Some? && e.value.UnitPriceRequired? ==>
      var n := e.value.item;
      && 1 <= n <= |inv.items|
      && inv.items[n - 1].unitPrice <= 0.0
      && forall j :: 0 <= j < n - 1 ==> ItemValid(inv.items[j])
    ensures e.Some? && e.value.QuantityRequired? ==>
      var n := e.value.item;
      && 1 <= n <= |inv.items|
      && inv.items[n - 1].quantity <= 0.0
      && forall j :: 0 <= j < n - 1 ==> ItemValid(inv.items[j])
  {
    if JsBlank(inv.number) then Some(NumberRequired)
    else if inv.date == "" then Some(DateRequired)
    else if JsBlank(inv.customerName) then Some(CustomerNameRequired)
    else if |inv.items| == 0 then Some(ItemsRequired)
    else FirstItemError(inv.items, 0)
  }

  /**
   * A client-valid item with a whole quantity passes the server's numeric
   * rules: `unit_price > 0` is stricter than `min:0`, and a positive integer
   * is at least 1.
   */
  lemma ClientItemPassesServerNumbers(it: Item)
    requires ItemValid(it) && InvoiceController.IsInteger(it.quantity)
    ensures InvoiceController.ValidUnitPrice(InvoiceController.Given(it.unitPrice))
    ensures InvoiceController.ValidQuantity(InvoiceController.Given(it.quantity))
  {
    assert it.quantity.Floor >= 1 by {
      assert it.quantity.Floor as real == it.quantity;
    }
  }

  /** The client accepts a fractional quantity that the server's `integer` rule refuses. */
  lemma ClientAcceptsFractionalQuantity()
    ensures ItemValid(Item(0, 1, "Widget", 10.0, 0.5, 5.0))
    ensures !InvoiceController.ValidQuantity(InvoiceController.Given(0.5))
  {
    assert !JsBlank("Widget") by {
      var space := IsJsSpace;
      assert !space("Widget"[0]);
    }
    assert (0.5).Floor == 0;
  }

  // ---------------------------------------------------------------------
  // Change detection and reset
  // ---------------------------------------------------------------------

  /** The loop over item positions: some position from `from` differs in name, price or quantity. */
  function ItemsDiffer(a: seq<Item>, b: seq<Item>, from: nat): (d: bool)
    requires |a| == |b| && from <= |a|
    ensures d <==> exists i :: (from <= i < |a| &&
      (a[i].productName != b[i].productName || a[i].unitPrice != b[i].unitPrice || a[i].quantity != b[i].quantity))
    decreases |a| - from
  {
    if from == |a| then false
    else if a[from].productName != b[from].productName || a[from].unitPrice != b[from].unitPrice
         || a[from].quantity != b[from].quantity then true
    else ItemsDiffer(a, b, from + 1)
  }

  /** `hasChanges`: false without both invoices; otherwise a header field, the item count or an item's content differs. */
  function HasChanges(s: ModalState): (changed: bool)
    ensures s.original.None? || s.edited.None? ==> !changed
    ensures s.original.Some? && s.edited.Some? ==>
      (changed <==> !InvoiceService.SameContent(s.edited.value, s.original.value))
  {
    match (s.edited, s.original)
    case (Some(e), Some(o)) =>
      if e.number != o.number || e.date != o.date || e.reference != o.reference
         || e.customerName != o.customerName then true
      else if |e.items| != |o.items| then true
      else ItemsDiffer(e.items, o.items, 0)
    case _ => false
  }

  /** A change is exactly a change to the body a save would send. */
  lemma HasChangesIffPayloadDiffers(s: ModalState)
    requires s.original.Some? && s.edited.Some?
    ensures HasChanges(s) <==>
      InvoiceService.ToPayload(s.edited.value) != InvoiceService.ToPayload(s.original.value)
  {
    InvoiceService.PayloadDeterminedByContent(s.edited.value, s.original.value);
  }

  /** `onReset`: the buffer becomes a copy of the original and the error is cleared. */
  function OnReset(s: ModalState): (r: ModalState)
    ensures r.original == s.original
    ensures s.original.Some? ==> r.edited == s.original && r.error.None?
    ensures s.original.None? ==> r == s
  {
    match s.original
    case Some(o) => ModalState(s.original, Some(o), None)
    case None => s
  }

  /** After a reset there is nothing to save. */
  lemma ResetHasNoChanges(s: ModalState)
    ensures !HasChanges(OnReset(s))
  {
  }

  // ---------------------------------------------------------------------
  // Item edits
  // ---------------------------------------------------------------------

  /** The line `addItem` appends: id 0, the invoice's id, no name, price 0, quantity 1, total 0. */
  function NewItem(invoiceId: int): Item {
    Item(0, invoiceId, "", 0.0, 1.0, 0.0)
  }

  /** Replaces the buffer's items, keeping every other field. */
  function WithItems(s: ModalState, items: seq<Item>): ModalState
    requires s.edited.Some?
  {
    s.(edited := Some(s.edited.value.(items := items)))
  }

  /** `addItem`: exactly one new line at the end; nothing else changes. */
  function AddItem(s: ModalState): (r: ModalState)
    ensures r.original == s.original && r.error == s.error
    ensures s.edited.None? ==> r == s
    ensures s.edited.Some? ==> r.edited.Some?
    ensures s.edited.Some? ==>
      var e, e' := s.edited.value, r.edited.value;
      && e' == e.(items := e'.items)
      && |e'.items| == |e.items| + 1
      && e'.items[..|e.items|] == e.items
      && e'.items[|e.items|] == Item(0, e.id, "", 0.0, 1.0, 0.0)
  {
    match s.edited
    case None => s
    case Some(e) => WithItems(s, e.items + [NewItem(e.id)])
  }

  /**
   * `items.splice(index, 1)`: a negative index counts from the end and is
   * clamped to 0; an index past the end removes nothing.
   */
  function SpliceOne<T>(xs: seq<T>, index: int): (r: seq<T>)
    ensures 0 <= index < |xs| ==> r == xs[..index] + xs[index + 1..]
    ensures index >= |xs| ==> r == xs
    ensures -|xs| <= index < 0 ==> r == xs[..|xs| + index] + xs[|xs| + index + 1..]
    ensures index < -|xs| && |xs| > 0 ==> r == xs[1..]
    ensures |xs| == 0 ==> r == xs
  {
    var start := if index < 0 then (if |xs| + index < 0 then 0 else |xs| + index) else index;
    if start >= |xs| then xs else xs[..start] + xs[start + 1..]
  }

  /** The position `splice(index, 1)` removes, if any. */
  function SplicePosition(len: nat, index: int): (p: Option<nat>)
    ensures p.Some? ==> p.value < len
  {
    var start := if index < 0 then (if len as int + index < 0 then 0 else len as int + index) else index;
    if start >= len then None else Some(start)
  }

  /** `splice` removes the element at `SplicePosition` and keeps the others in order. */
  lemma SpliceOneRemovesPosition<T>(xs: seq<T>, index: int)
    ensures SplicePosition(|xs|, index).None? ==> SpliceOne(xs, index) == xs
    ensures SplicePosition(|xs|, index).Some? ==>
      var p := SplicePosition(|xs|, index).value;
      SpliceOne(xs, index) == xs[..p] + xs[p + 1..]
  {
  }

  /** `removeItem(index)`: only the spliced position goes; the other items keep their order. */
  function RemoveItem(s: ModalState, index: int): (r: ModalState)
    ensures r.original == s.original && r.error == s.error
    ensures s.edited.None? ==> r == s
    ensures s.edited.Some? ==>
      var e := s.edited.value;
      && r.edited.Some?
      && r.edited.value == e.(items := SpliceOne(e.items, index))
  {
    match s.edited
    case None => s
    case Some(e) => WithItems(s, SpliceOne(e.items, index))
  }

  /** Removing the line just added restores the buffer. */
  lemma RemoveAddedItemRestores(s: ModalState)
    requires s.edited.Some?
    ensures RemoveItem(AddItem(s), |s.edited.value.items|) == s
  {
    var e := s.edited.value;
    var items := e.items + [NewItem(e.id)];
    assert items[..|e.items|] + items[|e.items| + 1..] == e.items;
  }

  /** `updateItem(index, field, value)` on one line; `total_amount` follows price and quantity edits. */
  function EditItem(it: Item, edit: ItemEdit): (r: Item)
    ensures r.id == it.id && r.invoiceId == it.invoiceId
    ensures edit.SetProductName? ==> r == it.(productName := edit.name)
    ensures edit.SetUnitPrice? ==>
      r.productName == it.productName && r.quantity == it.quantity
      && r.unitPrice == edit.price && TotalConsistent(r)
    ensures edit.SetQuantity? ==>
      r.productName == it.productName && r.unitPrice == it.unitPrice
      && r.quantity == edit.quantity && TotalConsistent(r)
    ensures edit.SetOtherField? ==> r == it
  {
    match edit
    case SetProductName(name) => it.(productName := name)
    case SetUnitPrice(price) => it.(unitPrice := price, totalAmount := LineTotal(price, it.quantity))
    case SetQuantity(q) => it.(quantity := q, totalAmount := LineTotal(it.unitPrice, q))
    case SetOtherField => it
  }

  /** `updateItem`: only item `index` changes, and only in the edited field (and its total). */
  function UpdateItem(s: ModalState, index: int, edit: ItemEdit): (r: ModalState)
    requires s.edited.Some? ==> 0 <= index < |s.edited.value.items|
    ensures r.original == s.original && r.error == s.error
    ensures s.edited.None? ==> r == s
    ensures s.edited.Some? ==>
      var e := s.edited.value;
      && r.edited.Some?
      && r.edited.value == e.(items := e.items[index := EditItem(e.items[index], edit)])
  {
    match s.edited
    case None => s
    case Some(e) => WithItems(s, e.items[index := EditItem(e.items[index], edit)])
  }

  // ---------------------------------------------------------------------
  // Totals
  // ---------------------------------------------------------------------

  /** `getTotalAmount`: the sum of the buffer's line totals, 0 without a buffer. */
  function GetTotalAmount(s: ModalState): (t: real)
    ensures s.edited.None? ==> t == 0.0
    ensures s.edited.Some? ==> t == SumTotals(s.edited.value.items)
    ensures s.edited.Some? && |s.edited.value.items| == 0 ==> t == 0.0
  {
    match s.edited
    case None => 0.0
    case Some(e) => SumTotals(e.items)
  }

  /** A new line contributes nothing to the total. */
  lemma AddItemKeepsTotal(s: ModalState)
    ensures GetTotalAmount(AddItem(s)) == GetTotalAmount(s)
  {
    if s.edited.Some? {
      SumTotalsAppend(s.edited.value.items, [NewItem(s.edited.value.id)]);
      assert [NewItem(s.edited.value.id)][..0] == [];
    }
  }

  /** Removing a line lowers the total by that line's amount. */
  lemma RemoveItemLowersTotal(s: ModalState, index: int)
    requires s.edited.Some? && 0 <= index < |s.edited.value.items|
    ensures GetTotalAmount(RemoveItem(s, index))
         == GetTotalAmount(s) - s.edited.value.items[index].totalAmount
  {
    SumTotalsRemove(s.edited.value.items, index);
  }

  /** Editing one line changes the total by exactly the change in that line's amount. */
  lemma UpdateItemShiftsTotal(s: ModalState, index: int, edit: ItemEdit)
    requires s.edited.Some? && 0 <= index < |s.edited.value.items|
    ensures var old_ := s.edited.value.items[index];
      GetTotalAmount(UpdateItem(s, index, edit))
        == GetTotalAmount(s) - old_.totalAmount + EditItem(old_, edit).totalAmount
  {
    var items := s.edited.value.items;
    var items' := items[index := EditItem(items[index], edit)];
    SumTotalsRemove(items, index);
    SumTotalsRemove(items', index);
    assert items'[..index] + items'[index + 1..] == items[..index] + items[index + 1..];
  }

  // ---------------------------------------------------------------------
  // onSave
  // ---------------------------------------------------------------------

  /** `onSave`: no call without a buffer or when validation fails (the error is shown); otherwise the update. */
  function OnSave(s: ModalState): (out: (ModalState, SaveCall))
    ensures out.1.UpdateCall? <==> s.edited.Some? && ClientValid(s.edited.value)
    ensures out.1.UpdateCall? ==>
      out.1 == UpdateCall(s.edited.value.id, InvoiceService.ToPayload(s.edited.value)) && out.0.error.None?
    ensures s.edited.Some? && !ClientValid(s.edited.value) ==>
      out.0.error.Some? && out.0.error == ValidateInvoice(s.edited.value)
    ensures out.0.original == s.original && out.0.edited == s.edited
  {
    match s.edited
    case None => (s, NoCall)
    case Some(e) =>
      match ValidateInvoice(e)
      case Some(err) => (s.(error := Some(err)), NoCall)
      case None => (s.(error := None), UpdateCall(e.id, InvoiceService.ToPayload(e)))
  }
}

=== FILE: query.dfy ===
/**
 * The server's read path over many invoices: `index` (filtered, ordered by
 * date descending, paginated) and `search` (unpaginated substring match
 * across the invoice's fields and its items' product names).
 */
module InvoiceQuery {
  import opened Wrappers
  import opened Text
  import opened Model
  import Sorting
  import Seqs
  import opened InvoiceController

  /** `$request->get('per_page', 15)` and the model's own page size. */
  const DefaultPerPage: nat := 15

  /** Query parameters of `GET /invoices` as strings; `None` when the key is absent. */
  datatype IndexParams = IndexParams(
    customerName: Option<string>,
    dateFrom: Option<string>,
    dateTo: Option<string>,
    perPage: Option<string>,
    page: Option<string>)

  /** The paginator's JSON: `current_page`, `data`, `last_page`, `per_page`, `total`. */
  datatype Page = Page(currentPage: nat, data: seq<Invoice>, lastPage: nat, perPage: nat, total: nat)

  datatype QueryError = InvalidPerPage

  // ---------------------------------------------------------------------
  // Rows in a deterministic order
  // ---------------------------------------------------------------------

  /** The rows under the keys `ks`, one per key, in ascending key (insertion) order. */
  function RowsById(m: map<int, Invoice>, ks: set<int>): (r: seq<Invoice>)
    requires ks <= m.Keys
    ensures |r| == |ks|
    ensures forall inv :: inv in r <==> exists k :: k in ks && m[k] == inv
  {
    var ids := Seqs.KeysAscending(ks);
    var r := seq(|ids|, i requires 0 <= i < |ids| => m[ids[i]]);
    forall inv | inv in r ensures exists k :: k in ks && m[k] == inv {
      var i :| 0 <= i < |r| && r[i] == inv;
      assert ids[i] in ks;
    }
    forall k | k in ks ensures m[k] in r {
      var i :| 0 <= i < |ids| && ids[i] == k;
      assert r[i] == m[k];
    }
    r
  }

  /** `orderBy('date', 'desc')`: later dates first. */
  function DateDescending(a: Invoice, b: Invoice): int {
    if LexLess(b.date, a.date) then -1 else if LexLess(a.date, b.date) then 1 else 0
  }

  lemma DateDescendingTotalPreorder()
    ensures Sorting.TotalPreorder(DateDescending)
  {
    forall a, b ensures DateDescending(a, b) == -DateDescending(b, a) {
      LexLessAsymmetric(a.date, b.date);
    }
    forall a, b, c | DateDescending(a, b) <= 0 && DateDescending(b, c) <= 0
      ensures DateDescending(a, c) <= 0
    {
      LexLessAsymmetric(a.date, b.date);
      LexLessAsymmetric(b.date, c.date);
      LexLessAsymmetric(a.date, c.date);
      LexLessTotal(a.date, b.date);
      LexLessTotal(b.date, c.date);
      LexLessTransitive(c.date, b.date, a.date);
    }
  }

  /** The rows under `ks`, one per key, ordered by date descending; equal dates stay in id order. */
  function OrderedRows(db: Database, ks: set<int>): (r: seq<Invoice>)
    requires ks <= db.invoices.Keys
    ensures |r| == |ks|
    ensures forall inv :: inv in r <==> exists k :: k in ks && db.invoices[k] == inv
    ensures Sorting.SortedBy(r, DateDescending)
  {
    var rows := RowsById(db.invoices, ks);
    DateDescendingTotalPreorder();
    Sorting.SortSorted(rows, DateDescending);
    Sorting.SortKeepsMembers(rows, DateDescending);
    Sorting.Sort(rows, DateDescending)
  }

  /** The keys of the rows satisfying `keep`. */
  function KeysWhere(m: map<int, Invoice>, keep: Invoice -> bool): (ks: set<int>)
    ensures ks <= m.Keys
    ensures forall k :: k in ks <==> k in m && keep(m[k])
  {
    set k | k in m.Keys && keep(m[k])
  }

  /** Rows drawn from `KeysWhere(m, keep)`: every stored row satisfying `keep`, and nothing else. */
  lemma RowsWhere(m: map<int, Invoice>, keep: Invoice -> bool, r: seq<Invoice>)
    requires forall inv :: inv in r <==> exists k :: k in KeysWhere(m, keep) && m[k] == inv
    ensures forall k :: k in m && keep(m[k]) ==> m[k] in r
    ensures forall inv :: inv in r ==> inv in m.Values && keep(inv)
  {
    forall k | k in m && keep(m[k]) ensures m[k] in r {
      assert k in KeysWhere(m, keep);
    }
    forall inv | inv in r ensures inv in m.Values && keep(inv) {
      var k :| k in KeysWhere(m, keep) && m[k] == inv;
      assert k in m;
    }
  }

  // ---------------------------------------------------------------------
  // index
  // ---------------------------------------------------------------------

  /** The optional `where` clauses: customer substring, `date >= date_from`, `date <= date_to`. */
  predicate MatchesFilters(inv: Invoice, p: IndexParams) {
    && (p.customerName.Some? ==> Contains(inv.customerName, p.customerName.value))
    && (p.dateFrom.Some? ==> !LexLess(inv.date, p.dateFrom.value))
    && (p.dateTo.Some? ==> !LexLess(p.dateTo.value, inv.date))
  }

  /** The keys of the rows that pass the filters. */
  function MatchingKeys(db: Database, p: IndexParams): set<int> {
    KeysWhere(db.invoices, inv => MatchesFilters(inv, p))
  }

  /** All rows `index` selects, before pagination: one per matching row, latest date first. */
  function Matching(db: Database, p: IndexParams): (r: seq<Invoice>)
    ensures |r| == |MatchingKeys(db, p)|
    ensures forall k :: k in db.invoices && MatchesFilters(db.invoices[k], p) ==> db.invoices[k] in r
    ensures forall inv :: inv in r ==> inv in db.invoices.Values && MatchesFilters(inv, p)
    ensures Sorting.SortedBy(r, DateDescending)
  {
    var r := OrderedRows(db, MatchingKeys(db, p));
    RowsWhere(db.invoices, inv => MatchesFilters(inv, p), r);
    r
  }

  lemma ParseNatZero(s: string)
    requires ParseNat(s) == Some(0)
    ensures s == "0"
  {
    DigitsValueZero(s);
  }

  lemma {:induction false} DigitsValueZero(s: string)
    requires forall i :: 0 <= i < |s| ==> IsDigit(s[i])
    requires DigitsValue(s) == 0
    ensures forall i :: 0 <= i < |s| ==> s[i] == '0'
  {
    if |s| > 0 {
      DigitsValueZero(s[..|s| - 1]);
      forall i | 0 <= i < |s| ensures s[i] == '0' {
        if i < |s| - 1 {
          assert s[i] == s[..|s| - 1][i];
        }
      }
    }
  }

  /**
   * The page size `paginate` uses: absent, empty or "0" (falsy in PHP) fall
   * back to 15; a canonical decimal is used as is; anything else fails.
   */
  function ResolvePerPage(param: Option<string>): (r: Option<nat>)
    ensures r.Some? ==> r.value >= 1
    ensures param.None? ==> r == Some(DefaultPerPage)
    ensures param == Some("") || param == Some("0") ==> r == Some(DefaultPerPage)
  {
    match param
    case None => Some(DefaultPerPage)
    case Some(s) =>
      if s == "" || s == "0" then Some(DefaultPerPage)
      else match ParseNat(s)
        case Some(n) =>
          if n == 0 then ParseNatZero(s); assert false; None
          else Some(n)
        case None => None
  }

  /** The paginator's current page: an integer (`FILTER_VALIDATE_INT`) of at least 1, else page 1. */
  function ResolvePage(param: Option<string>): (p: nat)
    ensures p >= 1
    ensures param.None? ==> p == 1
    ensures param.Some? && ParseInt(param.value).Some? && ParseInt(param.value).value >= 1 ==>
      p == ParseInt(param.value).value
    ensures param.Some? && (ParseInt(param.value).None? || ParseInt(param.value).value < 1) ==> p == 1
  {
    match param
    case Some(s) =>
      (match ParseInt(s)
       case Some(n) => if n >= 1 then n else 1
       case None => 1)
    case None => 1
  }

  /** A page size the client renders from a positive number reaches the server unchanged. */
  lemma ResolvePerPageOfNat(n: nat)
    requires n >= 1
    ensures ResolvePerPage(Some(NatToString(n))) == Some(n)
  {
    ParseNatRoundTrip(n);
  }

  /** A page number the client renders from a number reaches the server unchanged, or as page 1 when below 1. */
  lemma ResolvePageOfInt(n: int)
    ensures ResolvePage(Some(IntToString(n))) == if n >= 1 then n else 1
  {
    ParseIntRoundTrip(n);
  }

  /** A page number written with a `+` sign is read as the number. */
  lemma ResolvePageOfSigned(n: nat)
    requires n >= 1
    ensures ResolvePage(Some("+" + NatToString(n))) == n
  {
    ParseIntPlusSign(n);
  }

  /** `last_page`: enough pages for every row, and at least one. */
  function LastPage(total: nat, perPage: nat): (n: nat)
    requires perPage >= 1
    ensures n >= 1
    ensures total <= n * perPage
    ensures n == 1 || (n - 1) * perPage < total
  {
    if total == 0 then 1 else (total + perPage - 1) / perPage
  }

  /** The rows of page `page` (1-based): at most `perPage`, starting at `(page - 1) * perPage`. */
  function PageSlice<T>(all: seq<T>, perPage: nat, page: nat): (r: seq<T>)
    requires perPage >= 1 && page >= 1
    ensures |r| == if (page - 1) * perPage >= |all| then 0
                   else if |all| - (page - 1) * perPage < perPage then |all| - (page - 1) * perPage
                   else perPage
    ensures forall i :: 0 <= i < |r| ==> r[i] == all[(page - 1) * perPage + i]
  {
    Window(all, (page - 1) * perPage, perPage)
  }

  /** At most `len` rows starting at `start`, fewer when the rows run out. */
  function Window<T>(all: seq<T>, start: nat, len: nat): (r: seq<T>)
    ensures |r| == if start >= |all| then 0 else if |all| - start < len then |all| - start else len
    ensures forall i :: 0 <= i < |r| ==> r[i] == all[start + i]
  {
    if start >= |all| then []
    else if start + len > |all| then all[start..]
    else all[start..start + len]
  }

  /** A run of consecutive elements of an ordered sequence is ordered and drawn from it. */
  lemma WindowOfSorted<T>(all: seq<T>, start: nat, r: seq<T>, cmp: (T, T) -> int)
    requires start + |r| <= |all|
    requires forall i :: 0 <= i < |r| ==> r[i] == all[start + i]
    requires Sorting.SortedBy(all, cmp)
    ensures Sorting.SortedBy(r, cmp)
    ensures forall x :: x in r ==> x in all
  {
    forall i, j | 0 <= i < j < |r| ensures cmp(r[i], r[j]) <= 0 {
      assert r[i] == all[start + i] && r[j] == all[start + j];
    }
    forall x | x in r ensures x in all {
      var i :| 0 <= i < |r| && r[i] == x;
      assert all[start + i] == x;
    }
  }

  /** A page of an ordered selection is itself ordered and drawn from the selection. */
  lemma PageSliceOfSorted<T>(all: seq<T>, perPage: nat, page: nat, cmp: (T, T) -> int)
    requires perPage >= 1 && page >= 1
    requires Sorting.SortedBy(all, cmp)
    ensures Sorting.SortedBy(PageSlice(all, perPage, page), cmp)
    ensures forall x :: x in PageSlice(all, perPage, page) ==> x in all
  {
    var r := PageSlice(all, perPage, page);
    var start := (page - 1) * perPage;
    if |r| > 0 {
      WindowOfSorted(all, start, r, cmp);
    }
  }

  /** Pages 1 to `n` laid end to end. */
  function PagesUpTo<T>(all: seq<T>, perPage: nat, n: nat): seq<T>
    requires perPage >= 1
  {
    if n == 0 then [] else PagesUpTo(all, perPage, n - 1) + PageSlice(all, perPage, n)
  }

  lemma {:induction false} PagesUpToIsPrefix<T>(all: seq<T>, perPage: nat, n: nat)
    requires perPage >= 1
    ensures PagesUpTo(all, perPage, n) == all[..if n * perPage <= |all| then n * perPage else |all|]
  {
    if n > 0 {
      PagesUpToIsPrefix(all, perPage, n - 1);
      var start := (n - 1) * perPage;
      assert start + perPage == n * perPage;
      var a := if start <= |all| then start else |all|;
      var b := if n * perPage <= |all| then n * perPage else |all|;
      assert PageSlice(all, perPage, n) == all[a..b];
      PrefixThenSlice(all, a, b);
    }
  }

  /** A prefix followed by the slice after it is the longer prefix. */
  lemma PrefixThenSlice<T>(all: seq<T>, a: nat, b: nat)
    requires a <= b <= |all|
    ensures all[..a] + all[a..b] == all[..b]
  {
  }

  /** Walking every page from 1 to `last_page` yields each selected row exactly once, in order. */
  lemma PagesPartitionRows<T>(all: seq<T>, perPage: nat)
    requires perPage >= 1
    ensures PagesUpTo(all, perPage, LastPage(|all|, perPage)) == all
  {
    PagesUpToIsPrefix(all, perPage, LastPage(|all|, perPage));
  }

  /** The worked example: 23 rows at 10 per page make 3 pages, the third holding 3 rows. */
  lemma PaginationExample(all: seq<Invoice>)
    requires |all| == 23
    ensures LastPage(|all|, 10) == 3
    ensures |PageSlice(all, 10, 3)| == 3
  {
  }

  /** `GET /invoices`: the filtered rows, ordered by date descending, cut into pages. */
  function Index(db: Database, p: IndexParams): (r: Result<Page, QueryError>)
    ensures r.Failure? <==> ResolvePerPage(p.perPage).None?
    ensures p.perPage.None? ==> r.Success? && r.value.perPage == DefaultPerPage
    ensures r.Success? ==>
      var pg := r.value;
      && pg.total == |Matching(db, p)|
      && pg.perPage >= 1 && pg.currentPage >= 1 && pg.lastPage >= 1
      && pg.total <= pg.lastPage * pg.perPage
      && |pg.data| <= pg.perPage
    ensures r.Success? ==> forall inv :: inv in r.value.data ==> inv in db.invoices.Values && MatchesFilters(inv, p)
    ensures r.Success? ==> Sorting.SortedBy(r.value.data, DateDescending)
    ensures r.Success? ==>
      var pg := r.value;
      && pg.perPage == ResolvePerPage(p.perPage).value
      && pg.currentPage == ResolvePage(p.page)
      && pg.total == |MatchingKeys(db, p)|
      && pg.lastPage == LastPage(pg.total, pg.perPage)
      && pg.data == PageSlice(Matching(db, p), pg.perPage, pg.currentPage)
  {
    match ResolvePerPage(p.perPage)
    case None => Failure(InvalidPerPage)
    case Some(perPage) =>
      var all := Matching(db, p);
      var page := ResolvePage(p.page);
      var data := PageSlice(all, perPage, page);
      PageSliceOfSorted(all, perPage, page, DateDescending);
      Success(Page(page, data, LastPage(|all|, perPage), perPage, |all|))
  }

  // ---------------------------------------------------------------------
  // search
  // ---------------------------------------------------------------------

  /** PHP's `empty()` on the `q` parameter: null, "" and "0". */
  predicate PhpEmpty(term: Option<string>) {
    term.None? || term.value == "" || term.value == "0"
  }

  /** The grouped `where`: number, customer, reference, date, or some item's product name contains `t`. */
  predicate SearchMatches(inv: Invoice, t: string) {
    || Contains(inv.number, t)
    || Contains(inv.customerName, t)
    || (inv.reference.Some? && Contains(inv.reference.value, t))
    || Contains(inv.date, t)
    || exists i :: 0 <= i < |inv.items| && Contains(inv.items[i].productName, t)
  }

  /** The keys of the rows the search term `t` matches. */
  function SearchKeys(db: Database, t: string): set<int> {
    KeysWhere(db.invoices, inv => SearchMatches(inv, t))
  }

  /** Every row matching `t`, one per matching row, latest date first. */
  function SearchRows(db: Database, t: string): (r: seq<Invoice>)
    ensures |r| == |SearchKeys(db, t)|
    ensures forall k :: k in db.invoices && SearchMatches(db.invoices[k], t) ==> db.invoices[k] in r
    ensures forall inv :: inv in r ==> inv in db.invoices.Values && SearchMatches(inv, t)
    ensures Sorting.SortedBy(r, DateDescending)
  {
    var r := OrderedRows(db, SearchKeys(db, t));
    RowsWhere(db.invoices, inv => SearchMatches(inv, t), r);
    r
  }

  /**
   * `GET /invoices/search?q=`: the raw `q` goes through the request
   * middleware; a term PHP's `empty()` rejects gives nothing, any other term
   * every matching row, latest date first.
   */
  function Search(db: Database, raw: Option<string>): (r: seq<Invoice>)
    ensures var q := TrimmedInput(raw);
      && (PhpEmpty(q) ==> r == [])
      && (!PhpEmpty(q) ==> |r| == |SearchKeys(db, q.value)|)
      && (!PhpEmpty(q) ==> forall k :: k in db.invoices && SearchMatches(db.invoices[k], q.value) ==> db.invoices[k] in r)
      && (!PhpEmpty(q) ==> forall inv :: inv in r ==> inv in db.invoices.Values && SearchMatches(inv, q.value))
    ensures Sorting.SortedBy(r, DateDescending)
  {
    var q := TrimmedInput(raw);
    if PhpEmpty(q) then [] else SearchRows(db, q.value)
  }

  /** White space around the term, or a term of white space only, is removed before the `empty()` test. */
  lemma SearchBlankFindsNothing(db: Database, raw: string)
    requires PhpBlank(raw)
    ensures Search(db, Some(raw)) == []
  {
  }

  /** As written: the term "0" finds nothing, even when an invoice number contains "0". */
  lemma SearchZeroFindsNothing(db: Database, k: int)
    requires k in db.invoices && Contains(db.invoices[k].number, "0")
    ensures Search(db, Some("0")) == []
    ensures db.invoices[k] in SearchIntended(db, Some("0"))
  {
    ZeroSurvivesTrimming();
    SearchIntendedOfTrimmed(db, "0");
    assert SearchMatches(db.invoices[k], "0");
  }

  /** A term the middleware leaves alone is searched as it is. */
  lemma SearchIntendedOfTrimmed(db: Database, t: string)
    requires TrimmedInput(Some(t)) == Some(t)
    ensures SearchIntended(db, Some(t)) == SearchRows(db, t)
  {
  }

  /** The middleware passes the term "0" through unchanged. */
  lemma ZeroSurvivesTrimming()
    ensures TrimmedInput(Some("0")) == Some("0")
  {
    var s := "0";
    assert |s| == 1 && s[0] == '0';
    PhpTrimUnpadded(s);
  }

  /** `search` with only a missing or empty term (after the middleware) treated as empty. */
  function SearchIntended(db: Database, raw: Option<string>): (r: seq<Invoice>)
    ensures var q := TrimmedInput(raw);
      && (q.None? ==> r == [])
      && (q.Some? ==> |r| == |SearchKeys(db, q.value)|)
      && (q.Some? ==> forall k :: k in db.invoices && SearchMatches(db.invoices[k], q.value) ==> db.invoices[k] in r)
      && (q.Some? ==> forall inv :: inv in r ==> inv in db.invoices.Values && SearchMatches(inv, q.value))
    ensures Sorting.SortedBy(r, DateDescending)
  {
    var q := TrimmedInput(raw);
    if q.None? then [] else SearchRows(db, q.value)
  }
}

=== FILE: service.dfy ===
/**
 * The client's HTTP service as pure mappings: the body `updateInvoice`
 * sends, the query string `getInvoices` builds, and the duplicate-number
 * predicate `checkInvoiceNumberExists` applies to a list response. The
 * transport is left out; the server side of each request is the model of
 * the controller.
 */
module InvoiceService {
  import opened Wrappers
  import opened Text
  import opened Model
  import Sorting
  import opened InvoiceController
  import opened InvoiceQuery

  // ---------------------------------------------------------------------
  // updateInvoice: the request body
  // ---------------------------------------------------------------------

  /** One element of the body's `items`: no id, no `invoice_id`, no `total_amount`. */
  datatype ItemPayload = ItemPayload(productName: string, unitPrice: real, quantity: real)

  /** The JSON body of `PUT /invoices/{id}`. */
  datatype UpdatePayload = UpdatePayload(
    number: string,
    date: string,
    reference: Option<string>,
    customerName: string,
    items: seq<ItemPayload>)

  /**
   * What the body is able to carry: the header fields and each item's name,
   * price and quantity, position by position. Ids and totals are not part of it.
   */
  predicate SameContent(a: Invoice, b: Invoice) {
    && a.number == b.number && a.date == b.date && a.reference == b.reference
    && a.customerName == b.customerName
    && |a.items| == |b.items|
    && forall i :: 0 <= i < |a.items| ==>
         && a.items[i].productName == b.items[i].productName
         && a.items[i].unitPrice == b.items[i].unitPrice
         && a.items[i].quantity == b.items[i].quantity
  }

  function ItemToPayload(it: Item): ItemPayload {
    ItemPayload(it.productName, it.unitPrice, it.quantity)
  }

  /** The transformation in `updateInvoice`: header fields copied, items mapped one to one. */
  function ToPayload(inv: Invoice): (p: UpdatePayload)
    ensures p.number == inv.number && p.date == inv.date
    ensures p.reference == inv.reference && p.customerName == inv.customerName
    ensures |p.items| == |inv.items|
    ensures forall i :: 0 <= i < |p.items| ==>
      && p.items[i].productName == inv.items[i].productName
      && p.items[i].unitPrice == inv.items[i].unitPrice
      && p.items[i].quantity == inv.items[i].quantity
  {
    UpdatePayload(inv.number, inv.date, inv.reference, inv.customerName,
                  seq(|inv.items|, i requires 0 <= i < |inv.items| => ItemToPayload(inv.items[i])))
  }

  /** Two invoices produce the same body exactly when they agree on content; ids and totals never matter. */
  lemma PayloadDeterminedByContent(a: Invoice, b: Invoice)
    ensures ToPayload(a) == ToPayload(b) <==> SameContent(a, b)
  {
    var pa, pb := ToPayload(a), ToPayload(b);
    if SameContent(a, b) {
      assert pa.items == pb.items by {
        forall i | 0 <= i < |pa.items| ensures pa.items[i] == pb.items[i] {
        }
      }
    }
    if pa == pb {
      forall i | 0 <= i < |a.items| ensures a.items[i].productName == b.items[i].productName {
        assert pa.items[i] == pb.items[i];
      }
    }
  }

  /** How the server's validator reads the body: every key present, a null reference as absent. */
  function AsRequest(p: UpdatePayload): (req: InvoiceRequest)
    ensures req.number == Given(p.number) && req.date == Given(p.date)
    ensures req.customerName == Given(p.customerName)
    ensures p.reference.None? <==> req.reference.Missing?
    ensures p.reference.Some? ==> req.reference == Given(p.reference.value)
    ensures req.items.Given? && |req.items.value| == |p.items|
    ensures forall i :: 0 <= i < |p.items| ==>
      req.items.value[i] == ItemRequest(Given(p.items[i].productName), Given(p.items[i].unitPrice), Given(p.items[i].quantity))
  {
    InvoiceRequest(
      Given(p.number), Given(p.date),
      if p.reference.Some? then Given(p.reference.value) else Missing,
      Given(p.customerName),
      Given(seq(|p.items|, i requires 0 <= i < |p.items| =>
        ItemRequest(Given(p.items[i].productName), Given(p.items[i].unitPrice), Given(p.items[i].quantity)))))
  }

  /** A successful update stores exactly the content the client sent. */
  lemma UpdateStoresSentContent(db: Database, id: int, inv: Invoice)
    ensures var out := Update(db, id, AsRequest(ToPayload(inv)), false);
      out.1.Updated? ==> SameContent(out.1.invoice, inv) && out.1.invoice.id == id
  {
    var req := AsRequest(ToPayload(inv));
    var out := Update(db, id, req, false);
    if out.1.Updated? {
      var stored := out.1.invoice;
      assert stored == MakeInvoice(req, id, db.nextItemId);
      forall i | 0 <= i < |stored.items|
        ensures stored.items[i].productName == inv.items[i].productName
      {
        assert req.items.value[i].productName == Given(inv.items[i].productName);
      }
    }
  }

  /**
   * Sending an invoice's own content back succeeds whenever its fields
   * pass the rules: the invoice's own number is not "taken" by itself.
   */
  lemma ResendingOwnContentIsAccepted(db: Database, id: int)
    requires Valid(db) && id in db.invoices
    requires FieldRulesHold(AsRequest(ToPayload(db.invoices[id])))
    ensures Update(db, id, AsRequest(ToPayload(db.invoices[id])), false).1.Updated?
  {
    var req := AsRequest(ToPayload(db.invoices[id]));
    UpdateKeepingOwnNumberPassesUnique(db, id, req);
    assert RequestValid(req, db.invoices, Some(id));
  }

  // ---------------------------------------------------------------------
  // getInvoices: the query string
  // ---------------------------------------------------------------------

  /** The optional `filters` argument of `getInvoices`. */
  datatype Filters = Filters(
    customerName: Option<string>,
    dateFrom: Option<string>,
    dateTo: Option<string>,
    perPage: Option<int>,
    page: Option<int>)

  /** A JavaScript string value that is present and truthy (not empty). */
  predicate TruthyString(s: Option<string>) {
    s.Some? && s.value != ""
  }

  /** A JavaScript number value that is present and truthy (not zero). */
  predicate TruthyNumber(n: Option<int>) {
    n.Some? && n.value != 0
  }

  function StringParam(s: Option<string>): Option<string> {
    if TruthyString(s) then s else None
  }

  function NumberParam(n: Option<int>): Option<string> {
    if TruthyNumber(n) then Some(IntToString(n.value)) else None
  }

  /**
   * The `HttpParams` built by `getInvoices`: a key is set only for a filter
   * that is present and truthy, with the filter's value (numbers rendered in
   * decimal).
   */
  function QueryParams(filters: Option<Filters>): (p: IndexParams)
    ensures filters.None? ==> p == IndexParams(None, None, None, None, None)
    ensures filters.Some? ==>
      var f := filters.value;
      && (p.customerName.Some? <==> TruthyString(f.customerName))
      && (p.dateFrom.Some? <==> TruthyString(f.dateFrom))
      && (p.dateTo.Some? <==> TruthyString(f.dateTo))
      && (p.perPage.Some? <==> TruthyNumber(f.perPage))
      && (p.page.Some? <==> TruthyNumber(f.page))
      && (p.customerName.Some? ==> p.customerName == f.customerName)
      && (p.dateFrom.Some? ==> p.dateFrom == f.dateFrom)
      && (p.dateTo.Some? ==> p.dateTo == f.dateTo)
      && (p.perPage.Some? ==> p.perPage == Some(IntToString(f.perPage.value)))
      && (p.page.Some? ==> p.page == Some(IntToString(f.page.value)))
  {
    match filters
    case None => IndexParams(None, None, None, None, None)
    case Some(f) =>
      IndexParams(StringParam(f.customerName), StringParam(f.dateFrom), StringParam(f.dateTo),
                  NumberParam(f.perPage), NumberParam(f.page))
  }

  /**
   * The server reads back what the client meant: a positive page size and
   * page number arrive unchanged, an absent or zero page size becomes the
   * default, and an empty customer filter selects every customer.
   */
  lemma QueryParamsRoundTrip(f: Filters)
    ensures f.perPage.Some? && f.perPage.value >= 1 ==>
      ResolvePerPage(QueryParams(Some(f)).perPage) == Some(f.perPage.value)
    ensures f.perPage.None? || f.perPage == Some(0) ==>
      ResolvePerPage(QueryParams(Some(f)).perPage) == Some(DefaultPerPage)
    ensures f.page.Some? && f.page.value >= 1 ==>
      ResolvePage(QueryParams(Some(f)).page) == f.page.value
    ensures f.page.None? || f.page.value < 1 ==> ResolvePage(QueryParams(Some(f)).page) == 1
    ensures forall inv: Invoice :: f.customerName == Some("") && f.dateFrom.None? && f.dateTo.None? ==>
      MatchesFilters(inv, QueryParams(Some(f)))
  {
    if f.perPage.Some? && f.perPage.value >= 1 {
      ResolvePerPageOfNat(f.perPage.value);
    }
    if f.page.Some? {
      ResolvePageOfInt(f.page.value);
    }
  }

  // ---------------------------------------------------------------------
  // checkInvoiceNumberExists
  // ---------------------------------------------------------------------

  /** The callback's test: same number and, when `excludeId` is truthy, a different id. */
  predicate NumberMatch(inv: Invoice, number: string, excludeId: Option<int>) {
    inv.number == number && (!TruthyNumber(excludeId) || inv.id != excludeId.value)
  }

  /** `data.some(...)`, scanning from the front. */
  function AnyNumberMatch(data: seq<Invoice>, number: string, excludeId: Option<int>): (b: bool)
    ensures b <==> exists i :: 0 <= i < |data| && NumberMatch(data[i], number, excludeId)
  {
    if |data| == 0 then false
    else if NumberMatch(data[0], number, excludeId) then true
    else
      var b := AnyNumberMatch(data[1..], number, excludeId);
      assert b ==> exists i :: 0 <= i < |data| && NumberMatch(data[i], number, excludeId) by {
        if b {
          var i :| 0 <= i < |data[1..]| && NumberMatch(data[1..][i], number, excludeId);
          assert data[i + 1] == data[1..][i];
        }
      }
      assert (exists i :: 0 <= i < |data| && NumberMatch(data[i], number, excludeId)) ==> b by {
        if exists i :: 0 <= i < |data| && NumberMatch(data[i], number, excludeId) {
          var i :| 0 <= i < |data| && NumberMatch(data[i], number, excludeId);
          assert i > 0 && data[1..][i - 1] == data[i];
        }
      }
      b
  }

  /**
   * The query the check sends: `per_page=1` and, when truthy, `exclude_id`.
   * `index` reads no `exclude_id` key, so the request it answers is this.
   */
  const CheckParams: IndexParams := IndexParams(None, None, None, Some("1"), None)

  /** `checkInvoiceNumberExists` as written: the predicate over the first page of one row. */
  function CheckNumberExists(db: Database, number: string, excludeId: Option<int>): (r: Result<bool, QueryError>)
    ensures r.Success?
    ensures r.value ==> exists k :: k in db.invoices && NumberMatch(db.invoices[k], number, excludeId)
  {
    ParseNatRoundTrip(1);
    match Index(db, CheckParams)
    case Failure(e) => Failure(e)
    case Success(pg) =>
      var b := AnyNumberMatch(pg.data, number, excludeId);
      assert b ==> exists k :: k in db.invoices && NumberMatch(db.invoices[k], number, excludeId) by {
        if b {
          var i :| 0 <= i < |pg.data| && NumberMatch(pg.data[i], number, excludeId);
          assert pg.data[i] in db.invoices.Values;
        }
      }
      Success(b)
  }

  /** In a list ordered by date descending, an invoice dated before another one is not first. */
  lemma OlderIsNotFirst(all: seq<Invoice>, older: Invoice, newer: Invoice)
    requires Sorting.SortedBy(all, DateDescending)
    requires newer in all && LexLess(older.date, newer.date)
    ensures |all| > 0 && all[0] != older
  {
    LexLessAsymmetric(older.date, newer.date);
    LexLessIrreflexive(older.date);
    assert DateDescending(older, newer) == 1;
    var q :| 0 <= q < |all| && all[q] == newer;
    if q == 0 {
      assert all[0].date != older.date;
    } else {
      assert DateDescending(all[0], all[q]) <= 0;
    }
  }

  /** The as-written check looks at the latest-dated invoice only. */
  lemma CheckExaminesFirstRow(db: Database, number: string, excludeId: Option<int>)
    ensures var all := Matching(db, CheckParams);
      CheckNumberExists(db, number, excludeId) == Success(|all| > 0 && NumberMatch(all[0], number, excludeId))
  {
    assert ResolvePerPage(CheckParams.perPage) == Some(1) by {
      ParseNatRoundTrip(1);
    }
    assert ResolvePage(CheckParams.page) == 1;
    var all := Matching(db, CheckParams);
    var r := Index(db, CheckParams);
    assert r.Success? && r.value.data == PageSlice(all, 1, 1);
    assert AnyNumberMatch(PageSlice(all, 1, 1), number, excludeId) == (|all| > 0 && NumberMatch(all[0], number, excludeId));
  }

  /**
   * The as-written check misses a taken number whenever some other invoice
   * has a later date: only the latest-dated invoice is ever examined.
   */
  lemma CheckMissesOlderInvoice(db: Database, k: int, j: int)
    requires NumbersUnique(db.invoices)
    requires k in db.invoices && j in db.invoices
    requires LexLess(db.invoices[k].date, db.invoices[j].date)
    ensures CheckNumberExists(db, db.invoices[k].number, None) == Success(false)
    ensures NumberExistsIntended(db, db.invoices[k].number, None)
  {
    var number := db.invoices[k].number;
    var all := Matching(db, CheckParams);
    var ik, ij := db.invoices[k], db.invoices[j];
    assert ij in db.invoices.Values;
    OlderIsNotFirst(all, ik, ij);
    CheckExaminesFirstRow(db, number, None);
    var first := all[0];
    assert first in db.invoices.Values;
    var m :| m in db.invoices && db.invoices[m] == first;
    assert m != k;
    assert first.number != number;
    assert NumberMatch(ik, number, None);
  }

  /** The evident intent: some invoice anywhere holds the number (other than the excluded one). */
  function NumberExistsIntended(db: Database, number: string, excludeId: Option<int>): (b: bool)
    ensures b <==> exists k :: k in db.invoices && NumberMatch(db.invoices[k], number, excludeId)
  {
    var rows := RowsById(db.invoices, db.invoices.Keys);
    var b := AnyNumberMatch(rows, number, excludeId);
    assert (exists k :: k in db.invoices && NumberMatch(db.invoices[k], number, excludeId)) ==> b by {
      if exists k :: k in db.invoices && NumberMatch(db.invoices[k], number, excludeId) {
        var k :| k in db.invoices && NumberMatch(db.invoices[k], number, excludeId);
        assert db.invoices[k] in rows;
      }
    }
    assert b ==> exists k :: k in db.invoices && NumberMatch(db.invoices[k], number, excludeId) by {
      if b {
        var i :| 0 <= i < |rows| && NumberMatch(rows[i], number, excludeId);
        assert rows[i] in rows;
      }
    }
    b
  }

  /** The corrected check agrees with the server's `unique` rule, excluding the same row. */
  lemma NumberExistsIntendedMatchesServer(db: Database, number: string, excludeId: Option<int>)
    requires Valid(db)
    ensures NumberExistsIntended(db, number, excludeId)
        <==> NumberTaken(db.invoices, number, if TruthyNumber(excludeId) then excludeId else None)
  {
  }
}

=== FILE: sorting.dfy ===
/**
 * A stable insertion sort driven by a three-way comparator, the way
 * `Array.prototype.sort(compareFn)` and `ORDER BY` are used here: the
 * result is a permutation of the input, ordered by the comparator, and
 * elements the comparator calls equal keep their input order.
 */
module Sorting {

  /** Swapping the arguments negates the comparison. */
  ghost predicate Antisymmetric<T(!new)>(cmp: (T, T) -> int) {
    forall a, b :: cmp(a, b) == -cmp(b, a)
  }

  /** "Not greater" is transitive. */
  ghost predicate NotGreaterTransitive<T(!new)>(cmp: (T, T) -> int) {
    forall a, b, c :: cmp(a, b) <= 0 && cmp(b, c) <= 0 ==> cmp(a, c) <= 0
  }

  /** `cmp` is antisymmetric and its "not greater" relation is transitive: a total preorder. */
  ghost predicate TotalPreorder<T(!new)>(cmp: (T, T) -> int) {
    Antisymmetric(cmp) && NotGreaterTransitive(cmp)
  }

  /** Every earlier element compares not greater than every later one. */
  ghost predicate SortedBy<T>(s: seq<T>, cmp: (T, T) -> int) {
    forall i, j :: 0 <= i < j < |s| ==> cmp(s[i], s[j]) <= 0
  }

  /** Inserts `x` before the first element it does not exceed. */
  function Insert<T>(x: T, s: seq<T>, cmp: (T, T) -> int): (r: seq<T>)
    ensures |r| == |s| + 1
    ensures multiset(r) == multiset(s) + multiset{x}
    ensures forall y :: y in r ==> y == x || y in s
  {
    if |s| == 0 then [x]
    else if cmp(x, s[0]) <= 0 then [x] + s
    else
      assert s == [s[0]] + s[1..];
      [s[0]] + Insert(x, s[1..], cmp)
  }

  /** Stable sort: sorts the tail, then inserts the head ahead of its equals. */
  function Sort<T>(s: seq<T>, cmp: (T, T) -> int): (r: seq<T>)
    ensures |r| == |s|
    ensures multiset(r) == multiset(s)
  {
    if |s| == 0 then []
    else
      assert s == [s[0]] + s[1..];
      Insert(s[0], Sort(s[1..], cmp), cmp)
  }

  /** A head not greater than every element of a sorted tail gives a sorted sequence. */
  lemma ConsSorted<T>(h: T, t: seq<T>, cmp: (T, T) -> int)
    requires SortedBy(t, cmp)
    requires forall y :: y in t ==> cmp(h, y) <= 0
    ensures SortedBy([h] + t, cmp)
  {
    var r := [h] + t;
    forall i, j | 0 <= i < j < |r| ensures cmp(r[i], r[j]) <= 0 {
      if i == 0 {
        assert r[j] == t[j - 1] && r[j] in t;
      } else {
        assert r[i] == t[i - 1] && r[j] == t[j - 1];
      }
    }
  }

  /** The tail of a sorted sequence is sorted, and its head is not greater than any later element. */
  lemma SortedParts<T>(s: seq<T>, cmp: (T, T) -> int)
    requires SortedBy(s, cmp) && |s| > 0
    ensures SortedBy(s[1..], cmp)
    ensures forall y :: y in s[1..] ==> cmp(s[0], y) <= 0
  {
    forall i, j | 0 <= i < j < |s[1..]| ensures cmp(s[1..][i], s[1..][j]) <= 0 {
      assert s[1..][i] == s[i + 1] && s[1..][j] == s[j + 1];
    }
    forall y | y in s[1..] ensures cmp(s[0], y) <= 0 {
      var k :| 0 <= k < |s[1..]| && s[1..][k] == y;
      assert s[k + 1] == y;
    }
  }

  lemma {:induction false} InsertSorted<T(!new)>(x: T, s: seq<T>, cmp: (T, T) -> int)
    requires TotalPreorder(cmp)
    requires SortedBy(s, cmp)
    ensures SortedBy(Insert(x, s, cmp), cmp)
  {
    if |s| == 0 {
    } else {
      SortedParts(s, cmp);
      if cmp(x, s[0]) <= 0 {
        assert s == [s[0]] + s[1..];
        forall y | y in s ensures cmp(x, y) <= 0 {
          if y != s[0] {
            assert NotGreaterTransitive(cmp) && cmp(x, s[0]) <= 0 && cmp(s[0], y) <= 0;
          }
        }
        ConsSorted(x, s, cmp);
      } else {
        var rest := Insert(x, s[1..], cmp);
        InsertSorted(x, s[1..], cmp);
        assert Antisymmetric(cmp) && cmp(s[0], x) < 0;
        ConsSorted(s[0], rest, cmp);
      }
    }
  }

  /** Sorting with a total preorder yields an ordered permutation. */
  lemma {:induction false} SortSorted<T(!new)>(s: seq<T>, cmp: (T, T) -> int)
    requires TotalPreorder(cmp)
    ensures SortedBy(Sort(s, cmp), cmp)
  {
    if |s| > 0 {
      SortSorted(s[1..], cmp);
      InsertSorted(s[0], Sort(s[1..], cmp), cmp);
    }
  }

  /** Sorting keeps exactly the elements it was given. */
  lemma SortKeepsMembers<T>(s: seq<T>, cmp: (T, T) -> int)
    ensures forall x :: x in Sort(s, cmp) <==> x in s
  {
    var r := Sort(s, cmp);
    forall x ensures x in r <==> x in s {
      assert x in r <==> x in multiset(r);
      assert x in s <==> x in multiset(s);
    }
  }

  /** A comparator that calls everything equal leaves the input as it is. */
  lemma {:induction false} SortAllEqualIsIdentity<T(!new)>(s: seq<T>, cmp: (T, T) -> int)
    requires forall a, b :: cmp(a, b) == 0
    ensures Sort(s, cmp) == s
  {
    if |s| > 0 {
      SortAllEqualIsIdentity(s[1..], cmp);
      assert s == [s[0]] + s[1..];
    }
  }

  /** The elements of `s` that `cmp` calls equal to `e`, in their order in `s`. */
  function EquivalentTo<T>(s: seq<T>, e: T, cmp: (T, T) -> int): seq<T> {
    if |s| == 0 then []
    else (if cmp(s[0], e) == 0 then [s[0]] else []) + EquivalentTo(s[1..], e, cmp)
  }

  /** Two elements equal to a third compare equal to each other. */
  lemma EquivalentTransitive<T(!new)>(a: T, b: T, e: T, cmp: (T, T) -> int)
    requires TotalPreorder(cmp)
    requires cmp(a, e) == 0 && cmp(b, e) == 0
    ensures cmp(a, b) <= 0
  {
    assert cmp(e, b) == -cmp(b, e);
  }

  /** Elements `cmp` calls equal to `e` are not ordered apart from each other. */
  ghost predicate ClassConsistent<T(!new)>(e: T, cmp: (T, T) -> int) {
    forall a, b :: cmp(a, e) == 0 && cmp(b, e) == 0 ==> cmp(a, b) <= 0
  }

  /** The class of `e` in `[y] + t` is `y` (if equal to `e`) followed by the class in `t`. */
  lemma EquivalentToCons<T>(y: T, t: seq<T>, e: T, cmp: (T, T) -> int)
    ensures EquivalentTo([y] + t, e, cmp) == (if cmp(y, e) == 0 then [y] else []) + EquivalentTo(t, e, cmp)
  {
    assert ([y] + t)[1..] == t;
  }

  /** Two prefixes, one of them empty, can be written in either order. */
  lemma SwapPastEmpty<T>(a: seq<T>, b: seq<T>, c: seq<T>)
    requires a == [] || b == []
    ensures a + (b + c) == b + (a + c)
  {
    if a == [] {
      assert a + (b + c) == b + c == b + (a + c);
    } else {
      assert a + (b + c) == a + c == b + (a + c);
    }
  }

  /** Insertion places `x` after no element equal to it. */
  lemma {:induction false} InsertStable<T(!new)>(x: T, s: seq<T>, e: T, cmp: (T, T) -> int)
    requires ClassConsistent(e, cmp)
    ensures EquivalentTo(Insert(x, s, cmp), e, cmp) == EquivalentTo([x] + s, e, cmp)
  {
    if |s| > 0 && cmp(x, s[0]) > 0 {
      var t := s[1..];
      var xs := if cmp(x, e) == 0 then [x] else [];
      var s0 := if cmp(s[0], e) == 0 then [s[0]] else [];
      InsertStable(x, t, e, cmp);
      EquivalentToCons(s[0], Insert(x, t, cmp), e, cmp);
      EquivalentToCons(x, t, e, cmp);
      assert s == [s[0]] + t;
      EquivalentToCons(s[0], t, e, cmp);
      EquivalentToCons(x, s, e, cmp);
      assert xs == [] || s0 == [];
      SwapPastEmpty(s0, xs, EquivalentTo(t, e, cmp));
    }
  }

  /** Stability: for every equivalence class, sorting keeps the class's elements in input order. */
  lemma {:induction false} SortStable<T(!new)>(s: seq<T>, e: T, cmp: (T, T) -> int)
    requires TotalPreorder(cmp)
    ensures EquivalentTo(Sort(s, cmp), e, cmp) == EquivalentTo(s, e, cmp)
  {
    if |s| > 0 {
      forall a, b | cmp(a, e) == 0 && cmp(b, e) == 0 ensures cmp(a, b) <= 0 {
        EquivalentTransitive(a, b, e, cmp);
      }
      SortStable(s[1..], e, cmp);
      InsertStable(s[0], Sort(s[1..], cmp), e, cmp);
      assert ([s[0]] + Sort(s[1..], cmp))[1..] == Sort(s[1..], cmp);
    }
  }
}

/** Order-preserving selection from a sequence. */
module Seqs {

  /** `a` can be obtained from `b` by deleting elements, keeping the order of the rest. */
  ghost predicate Subsequence<T>(a: seq<T>, b: seq<T>)
    decreases |b|
  {
    if |a| == 0 then true
    else if |b| == 0 then false
    else if a[0] == b[0] then Subsequence(a[1..], b[1..])
    else Subsequence(a, b[1..])
  }

  /** `Array.prototype.filter`: keeps exactly the elements satisfying `keep`, each as often as before, in order. */
  function Filter<T(!new)>(s: seq<T>, keep: T -> bool): (r: seq<T>)
    ensures forall x :: x in r <==> x in s && keep(x)
    ensures forall x :: multiset(r)[x] == if keep(x) then multiset(s)[x] else 0
    ensures Subsequence(r, s)
  {
    if |s| == 0 then []
    else
      assert s == [s[0]] + s[1..];
      var rest := Filter(s[1..], keep);
      if keep(s[0]) then
        assert ([s[0]] + rest)[1..] == rest;
        [s[0]] + rest
      else rest
  }

  /** A set that is not empty has a member. */
  lemma NonEmptyHasElement(ks: set<int>)
    requires ks != {}
    ensures exists y :: y in ks
  {
    if forall y :: y !in ks {
      assert false;
    }
  }

  /** Adding `x` back to `ks - {x}`, whose least member is `m`, gives the smaller of the two as least member. */
  lemma MinOfInsert(ks: set<int>, x: int, m: int)
    requires x in ks && m in ks - {x} && forall k :: k in ks - {x} ==> m <= k
    ensures var least := if x < m then x else m;
      least in ks && forall k :: k in ks ==> least <= k
  {
    var least := if x < m then x else m;
    forall k | k in ks ensures least <= k {
      if k != x {
        assert k in ks - {x};
      }
    }
  }

  /** The only member of a set is its least member. */
  lemma MinOfSingleton(ks: set<int>, x: int)
    requires x in ks && ks - {x} == {}
    ensures forall k :: k in ks ==> x <= k
  {
    forall k | k in ks ensures x <= k {
      assert k !in ks - {x};
    }
  }

  /** A finite non-empty set of integers has a least member. */
  lemma {:induction false} MinExists(ks: set<int>)
    requires ks != {}
    ensures exists m :: m in ks && forall k :: k in ks ==> m <= k
  {
    NonEmptyHasElement(ks);
    var x :| x in ks;
    if ks - {x} == {} {
      MinOfSingleton(ks, x);
    } else {
      MinExists(ks - {x});
      var m :| m in ks - {x} && forall k :: k in ks - {x} ==> m <= k;
      MinOfInsert(ks, x, m);
    }
  }

  /** The least member of `ks`. */
  function MinKey(ks: set<int>): (m: int)
    requires ks != {}
    ensures m in ks && forall k :: k in ks ==> m <= k
  {
    MinExists(ks);
    var m :| m in ks && forall k :: k in ks ==> m <= k; m
  }

  /** The keys in ascending order: the order rows were inserted under auto-increment ids. */
  function KeysAscending(ks: set<int>): (r: seq<int>)
    ensures |r| == |ks|
    ensures forall k :: k in r <==> k in ks
    ensures forall i, j :: 0 <= i < j < |r| ==> r[i] < r[j]
    decreases ks
  {
    if ks == {} then []
    else
      var m := MinKey(ks);
      var rest := KeysAscending(ks - {m});
      PrependSmallest(m, rest);
      [m] + rest
  }

  /** Putting a key smaller than all others in front of an ascending sequence keeps it ascending. */
  lemma PrependSmallest(m: int, rest: seq<int>)
    requires forall i, j :: 0 <= i < j < |rest| ==> rest[i] < rest[j]
    requires forall k :: k in rest ==> m < k
    ensures forall i, j :: 0 <= i < j < |[m] + rest| ==> ([m] + rest)[i] < ([m] + rest)[j]
  {
    var r := [m] + rest;
    forall i, j | 0 <= i < j < |r| ensures r[i] < r[j] {
      if i == 0 {
        assert r[j] == rest[j - 1] && r[j] in rest;
      } else {
        assert r[i] == rest[i - 1] && r[j] == rest[j - 1];
      }
    }
  }
}

=== FILE: text.dfy ===
/**
 * String primitives the two sides of the application rely on: JavaScript's
 * `trim`, PHP's notion of a blank string, ASCII lower-casing, substring
 * search, code-point ordering of strings, and decimal rendering and parsing
 * of naturals (query parameters travel as strings).
 */
module Text {
  import opened Wrappers

  // ---------------------------------------------------------------------
  // Trimming
  // ---------------------------------------------------------------------

  /** Every character of `s` is in the white-space set `space`, checked from the front. */
  predicate AllSpace(s: string, space: char -> bool)
    decreases |s|
  {
    |s| == 0 || (space(s[0]) && AllSpace(s[1..], space))
  }

  /** `AllSpace` is the character-by-character test. */
  lemma {:induction false} AllSpaceIff(s: string, space: char -> bool)
    ensures AllSpace(s, space) <==> forall i :: 0 <= i < |s| ==> space(s[i])
    decreases |s|
  {
    if |s| > 0 {
      AllSpaceIff(s[1..], space);
      forall i | 1 <= i < |s| ensures s[1..][i - 1] == s[i] {
      }
    }
  }

  /** White space splits over concatenation. */
  lemma {:induction false} AllSpaceConcat(a: string, b: string, space: char -> bool)
    ensures AllSpace(a + b, space) <==> AllSpace(a, space) && AllSpace(b, space)
    decreases |a|
  {
    if |a| > 0 {
      assert (a + b)[0] == a[0];
      assert (a + b)[1..] == a[1..] + b;
      AllSpaceConcat(a[1..], b, space);
    } else {
      assert a + b == b;
    }
  }

  /** White space splits at any position. */
  lemma {:induction false} AllSpaceSplit(s: string, i: nat, space: char -> bool)
    requires i <= |s|
    ensures AllSpace(s, space) <==> AllSpace(s[..i], space) && AllSpace(s[i..], space)
    decreases i
  {
    if i > 0 {
      AllSpaceSplit(s[1..], i - 1, space);
      assert s[..i][0] == s[0];
      assert s[..i][1..] == s[1..][..i - 1];
      assert s[1..][i - 1..] == s[i..];
    } else {
      assert s[..i] == [] && s[i..] == s;
    }
  }

  /** Drops leading white space: the result is the longest suffix not starting with a space. */
  function TrimStart(s: string, space: char -> bool): (r: string)
    ensures |r| <= |s| && r == s[|s| - |r|..]
    ensures AllSpace(s[..|s| - |r|], space)
    ensures r == [] || !space(r[0])
    decreases |s|
  {
    if |s| > 0 && space(s[0]) then
      var r := TrimStart(s[1..], space);
      assert s[..|s| - |r|][0] == s[0];
      assert s[..|s| - |r|][1..] == s[1..][..|s| - 1 - |r|];
      r
    else
      s
  }

  /** Drops trailing white space: the result is the longest prefix not ending with a space. */
  function TrimEnd(s: string, space: char -> bool): (r: string)
    ensures |r| <= |s| && r == s[..|r|]
    ensures AllSpace(s[|r|..], space)
    ensures r == [] || !space(r[|r| - 1])
    decreases |s|
  {
    if |s| > 0 && space(s[|s| - 1]) then
      var r := TrimEnd(s[..|s| - 1], space);
      var last := [s[|s| - 1]];
      assert AllSpace(last, space) by {
        assert last[1..] == [];
      }
      assert s[|r|..] == s[..|s| - 1][|r|..] + last;
      AllSpaceConcat(s[..|s| - 1][|r|..], last, space);
      r
    else
      s
  }

  /** The length of the white space that `s` starts with. */
  function LeadingSpace(s: string, space: char -> bool): (n: nat)
    ensures n <= |s| && AllSpace(s[..n], space)
    ensures n < |s| ==> !space(s[n])
  {
    |s| - |TrimStart(s, space)|
  }

  /**
   * Both ends trimmed: the middle slice of `s` left after removing white
   * space at either end. Empty exactly when `s` is all white space.
   */
  function Trim(s: string, space: char -> bool): (r: string)
    ensures r == [] <==> AllSpace(s, space)
    ensures r != [] ==> !space(r[0]) && !space(r[|r| - 1])
    ensures var i := LeadingSpace(s, space);
      OccursAt(s, r, i) && AllSpace(s[..i], space) && AllSpace(s[i + |r|..], space)
  {
    var t := TrimStart(s, space);
    var r := TrimEnd(t, space);
    TrimMiddle(s, t, r, space);
    TrimMiddleEmptyIff(s, t, r, space);
    assert LeadingSpace(s, space) == |s| - |t|;
    r
  }

  /**
   * A white-space prefix of `s` cut off, then a white-space suffix of the
   * rest: the middle is what remains, a slice of `s` with white space on both sides.
   */
  lemma TrimMiddle(s: string, t: string, r: string, space: char -> bool)
    requires |t| <= |s| && t == s[|s| - |t|..] && AllSpace(s[..|s| - |t|], space)
    requires |r| <= |t| && r == t[..|r|] && AllSpace(t[|r|..], space)
    ensures var i := |s| - |t|; OccursAt(s, r, i) && AllSpace(s[..i], space) && AllSpace(s[i + |r|..], space)
  {
    var i := |s| - |t|;
    assert s[i..i + |r|] == t[..|r|];
    assert s[i + |r|..] == t[|r|..];
  }

  /** The trimmed middle is empty exactly when all of `s` is white space, and has non-space ends. */
  lemma TrimMiddleEmptyIff(s: string, t: string, r: string, space: char -> bool)
    requires |t| <= |s| && t == s[|s| - |t|..] && AllSpace(s[..|s| - |t|], space) && (t == [] || !space(t[0]))
    requires |r| <= |t| && r == t[..|r|] && AllSpace(t[|r|..], space) && (r == [] || !space(r[|r| - 1]))
    ensures r == [] <==> AllSpace(s, space)
    ensures r != [] ==> !space(r[0]) && !space(r[|r| - 1])
  {
    AllSpaceSplit(s, |s| - |t|, space);
    if r == [] {
      assert t[|r|..] == t;
    } else {
      assert r[0] == t[0];
    }
  }

  /** A string without white space at either end is its own trim. */
  lemma TrimUnpadded(s: string, space: char -> bool)
    requires s == [] || (!space(s[0]) && !space(s[|s| - 1]))
    ensures Trim(s, space) == s
  {
    assert TrimStart(s, space) == s;
    assert TrimEnd(s, space) == s;
  }

  // ---------------------------------------------------------------------
  // JavaScript String.prototype.trim
  // ---------------------------------------------------------------------

  /** WhiteSpace and LineTerminator code points of ECMAScript (section 12.2 and 12.3 of ECMA-262). */
  predicate IsJsSpace(c: char) {
    || c == ' ' || c == '\t' || c == '\n' || c == '\r'
    || c == '\U{000B}' || c == '\U{000C}' || c == '\U{00A0}' || c == '\U{1680}'
    || ('\U{2000}' <= c <= '\U{200A}')
    || c == '\U{2028}' || c == '\U{2029}' || c == '\U{202F}' || c == '\U{205F}'
    || c == '\U{3000}' || c == '\U{FEFF}'
  }

  /** Every character of `s` is JavaScript white space (so `s.trim()` is falsy). */
  predicate JsBlank(s: string) {
    AllSpace(s, IsJsSpace)
  }

  /**
   * `s.trim()`: empty exactly when `s` is blank; otherwise the slice of `s`
   * between leading and trailing white space, with non-space ends.
   */
  function JsTrim(s: string): (r: string)
    ensures r == [] <==> JsBlank(s)
    ensures r != [] ==> !IsJsSpace(r[0]) && !IsJsSpace(r[|r| - 1])
    ensures var i := LeadingSpace(s, IsJsSpace);
      OccursAt(s, r, i) && JsBlank(s[..i]) && JsBlank(s[i + |r|..])
  {
    Trim(s, IsJsSpace)
  }

  /** Trimming twice is trimming once. */
  lemma JsTrimIdempotent(s: string)
    ensures JsTrim(JsTrim(s)) == JsTrim(s)
  {
    TrimUnpadded(JsTrim(s), IsJsSpace);
  }

  // ---------------------------------------------------------------------
  // PHP trim
  // ---------------------------------------------------------------------

  /** The characters PHP's `trim` strips by default: space, tab, LF, CR, NUL, vertical tab. */
  predicate IsPhpSpace(c: char) {
    c == ' ' || c == '\t' || c == '\n' || c == '\r' || c == '\U{0000}' || c == '\U{000B}'
  }

  /** `trim($s) === ''` in PHP. */
  predicate PhpBlank(s: string) {
    AllSpace(s, IsPhpSpace)
  }

  /** PHP's `trim($s)`: the slice of `s` between leading and trailing white space. */
  function PhpTrim(s: string): (r: string)
    ensures r == [] <==> PhpBlank(s)
    ensures r != [] ==> !IsPhpSpace(r[0]) && !IsPhpSpace(r[|r| - 1])
    ensures var i := LeadingSpace(s, IsPhpSpace);
      OccursAt(s, r, i) && PhpBlank(s[..i]) && PhpBlank(s[i + |r|..])
  {
    Trim(s, IsPhpSpace)
  }

  /** A string without PHP white space at either end is its own `trim`. */
  lemma PhpTrimUnpadded(s: string)
    requires s == [] || (!IsPhpSpace(s[0]) && !IsPhpSpace(s[|s| - 1]))
    ensures PhpTrim(s) == s
  {
    TrimUnpadded(s, IsPhpSpace);
  }

  // ---------------------------------------------------------------------
  // Case folding, substring search, ordering
  // ---------------------------------------------------------------------

  /** `toLowerCase` restricted to ASCII letters. */
  function LowerChar(c: char): char {
    if 'A' <= c <= 'Z' then (c as int + 32) as char else c
  }

  function Lower(s: string): string {
    seq(|s|, i requires 0 <= i < |s| => LowerChar(s[i]))
  }

  /** `sub` occurs in `s` starting at index `i`. */
  predicate OccursAt(s: string, sub: string, i: int) {
    0 <= i && i + |sub| <= |s| && s[i..i + |sub|] == sub
  }

  /** `sub` occurs in `s` at some position (SQL `LIKE '%sub%'` without wildcards in `sub`). */
  predicate Contains(s: string, sub: string) {
    exists i :: 0 <= i <= |s| && OccursAt(s, sub, i)
  }

  /**
   * String `<`: lexicographic on characters by code point, a proper prefix
   * is smaller. JavaScript compares UTF-16 code units instead; the two
   * orders differ only between characters above U+FFFF and U+E000..U+FFFF.
   */
  predicate LexLess(a: string, b: string) {
    if |a| == 0 then |b| > 0
    else if |b| == 0 then false
    else if a[0] != b[0] then a[0] < b[0]
    else LexLess(a[1..], b[1..])
  }

  lemma {:induction false} LexLessIrreflexive(a: string)
    ensures !LexLess(a, a)
  {
    if |a| > 0 {
      LexLessIrreflexive(a[1..]);
    }
  }

  lemma {:induction false} LexLessAsymmetric(a: string, b: string)
    ensures LexLess(a, b) ==> !LexLess(b, a)
  {
    if |a| > 0 && |b| > 0 && a[0] == b[0] {
      LexLessAsymmetric(a[1..], b[1..]);
    }
  }

  lemma {:induction false} LexLessTransitive(a: string, b: string, c: string)
    ensures LexLess(a, b) && LexLess(b, c) ==> LexLess(a, c)
  {
    if |a| > 0 && |b| > 0 && |c| > 0 && a[0] == b[0] && b[0] == c[0] {
      LexLessTransitive(a[1..], b[1..], c[1..]);
    }
  }

  lemma {:induction false} LexLessTotal(a: string, b: string)
    ensures a == b || LexLess(a, b) || LexLess(b, a)
  {
    if |a| > 0 && |b| > 0 && a[0] == b[0] {
      LexLessTotal(a[1..], b[1..]);
      if a[1..] == b[1..] {
        assert a == [a[0]] + a[1..] && b == [b[0]] + b[1..];
      }
    }
  }

  // ---------------------------------------------------------------------
  // Decimal naturals
  // ---------------------------------------------------------------------

  predicate IsDigit(c: char) {
    '0' <= c <= '9'
  }

  function DigitChar(d: nat): (c: char)
    requires d < 10
    ensures IsDigit(c)
  {
    (d + '0' as int) as char
  }

  function DigitValue(c: char): nat
    requires IsDigit(c)
  {
    c as int - '0' as int
  }

  /** Value of a string of digits, most significant first. */
  function DigitsValue(s: string): nat
    requires forall i :: 0 <= i < |s| ==> IsDigit(s[i])
  {
    if |s| == 0 then 0 else DigitsValue(s[..|s| - 1]) * 10 + DigitValue(s[|s| - 1])
  }

  /** `n.toString()`: digits only, and no leading zero unless `n` is zero. */
  function NatToString(n: nat): (r: string)
    ensures |r| >= 1
    ensures forall i :: 0 <= i < |r| ==> IsDigit(r[i])
    ensures (r[0] == '0') == (n == 0)
    ensures r[0] == '0' ==> |r| == 1
  {
    if n < 10 then [DigitChar(n)] else NatToString(n / 10) + [DigitChar(n % 10)]
  }

  /** `n.toString()` for any integer. */
  function IntToString(n: int): (r: string)
    ensures |r| >= 1
    ensures (r[0] == '-') == (n < 0)
  {
    if n < 0 then "-" + NatToString(-n) else NatToString(n)
  }

  /** A canonical decimal natural: digits only, no leading zero except "0"; anything else is `None`. */
  function ParseNat(s: string): (r: Option<nat>)
    ensures r.Some? ==> |s| >= 1 && forall i :: 0 <= i < |s| ==> IsDigit(s[i])
    ensures |s| == 0 ==> r.None?
  {
    if |s| == 0 || (exists i :: 0 <= i < |s| && !IsDigit(s[i])) || (|s| > 1 && s[0] == '0') then None
    else Some(DigitsValue(s))
  }

  lemma {:induction false} DigitsValueOfNatToString(n: nat)
    ensures DigitsValue(NatToString(n)) == n
  {
    if n >= 10 {
      var s := NatToString(n);
      assert s[..|s| - 1] == NatToString(n / 10);
      DigitsValueOfNatToString(n / 10);
    }
  }

  /** Rendering a natural and reading it back yields the same natural. */
  lemma ParseNatRoundTrip(n: nat)
    ensures ParseNat(NatToString(n)) == Some(n)
  {
    DigitsValueOfNatToString(n);
  }

  /** PHP's `FILTER_VALIDATE_INT`: an optional `+` or `-` sign, then a canonical decimal natural. */
  function ParseInt(s: string): (r: Option<int>)
    ensures |s| == 0 ==> r.None?
    ensures |s| > 0 && s[0] != '+' && s[0] != '-' ==> r == (if ParseNat(s).Some? then Some(ParseNat(s).value as int) else None)
    ensures |s| > 0 && s[0] == '+' ==> r == (if ParseNat(s[1..]).Some? then Some(ParseNat(s[1..]).value as int) else None)
    ensures |s| > 0 && s[0] == '-' ==> r == (if ParseNat(s[1..]).Some? then Some(0 - ParseNat(s[1..]).value as int) else None)
  {
    if |s| > 0 && (s[0] == '+' || s[0] == '-') then
      match ParseNat(s[1..])
      case Some(n) => Some(if s[0] == '-' then 0 - n as int else n as int)
      case None => None
    else
      match ParseNat(s)
      case Some(n) => Some(n)
      case None => None
  }

  /** Rendering an integer and reading it back yields the same integer. */
  lemma ParseIntRoundTrip(n: int)
    ensures ParseInt(IntToString(n)) == Some(n)
  {
    if n < 0 {
      assert IntToString(n)[1..] == NatToString(-n);
    }
    ParseNatRoundTrip(if n < 0 then -n else n);
  }

  /** An explicit `+` sign is read like no sign at all. */
  lemma ParseIntPlusSign(n: nat)
    ensures ParseInt("+" + NatToString(n)) == Some(n)
  {
    assert ("+" + NatToString(n))[1..] == NatToString(n);
    ParseNatRoundTrip(n);
  }
}

=== FILE: wrappers.dfy ===
/** Failure-carrying datatypes shared by the rest of the model. */
module Wrappers {

  /** A value that may be absent: a JSON `null`, a missing key, an optional filter. */
  datatype Option<+T> = None | Some(value: T)

  /** Either a computed value or the reason it could not be computed. */
  datatype Result<+R, +E> = Success(value: R) | Failure(error: E)
}
